=== FILE: README.md ===
# Addon manager decision logic

A Dafny model of the decision logic in Kodi's addon manager
(`xbmc/addons/AddonManager.cpp`). The model covers the following:

- how a C-Pluff plug-in descriptor becomes an addon record:
  - `GetFirstExtPoint` chooses the extension point.
  - `Factory` decides whether there is an addon at all.
  - `FillCpluffMetadata` fills in identity, paths, dependencies and metadata texts.
- the platform filter (`PlatformSupportsAddon`);
- the localised text lookup (`GetTranslatedString`);
- the registry state of disabled and update-blacklisted ids, and the
  operations that change it: disable, enable, blacklist, unblacklist and post-uninstall;
- the queries over installed addons: enabled, installed, disabled,
  installable, and available updates;
- service start and stop selection, the default-addon settings tables, and
  the mapping between C-Pluff log severities and the host's log levels.

The model is functional. Descriptors, the addon record and the registry state
are immutable datatypes, and every operation is a pure function or a short
method. Whatever the manager gets from outside is a parameter:

- The database write of each state change is a `dbOk: bool` success flag.
- The database's installed builders, the descriptors C-Pluff knows (a map from
  id to descriptor) and the ids in use are an `Env` record.
- The settings store is a map from setting key to value.
- The repository lookup used for updates is a map from id to addon.
- The repository listing is an optional sequence; `None` means it could not be read.
- The `AddonVersion` order is a function `greater`.
- The locale's `Matches` and `FindBestMatch` are a `Locale` record of two functions.
- The host's compile-time tables are a `Host` record: its platform tags, its
  platform library keys in fallback order, and the system addons path. The
  record also carries `TranslateType`, which maps extension point ids to addon kinds.

The files and their modules are:

- `wrappers.dfy` (`Wrappers`): `Option`.
- `collections.dfy` (`Collections`): the "first insertion wins" behaviour of
  `std::map::emplace` and `insert`, with a reference definition.
- `string_utils.dfy` (`StringUtils`): prefix test, and tokenising with its
  reference definition and round trip.
- `uri_utils.dfy` (`UriUtils`): `AddFileToFolder` for plain folder paths.
- `cpluff.dfy` (`Cpluff`): descriptors and configuration elements,
  `GetExtValue`, `GetExtList`, `GetExtElements`, `GetExtension`.
- `addon_types.dfy` (`AddonTypes`): addon kinds, versions, dependencies and
  the addon record that `CAddonBuilder` builds.
- `platform.dfy` (`Platform`): the host and the locale.
- `locale_text.dfy` (`LocaleText`): `GetTranslatedString`.
- `translator.dfy` (`Translator`): `GetFirstExtPoint`,
  `PlatformSupportsAddon`, `GetPlatformLibraryName`, `FillCpluffMetadata`, `Factory`.
- `registry.dfy` (`Registry`):
  - lookups and queries: `GetAddon`, `GetAddonsInternal` and the queries built on it;
  - the disable guard and the disable and enable transitions;
  - the blacklist and uninstall;
  - install eligibility.
- `updates.dfy` (`Updates`): `GetAvailableUpdates`.
- `services.dfy` (`Services`): `StartServices`, `StopServices`.
- `defaults.dfy` (`Defaults`): `GetDefault`, `SetDefault`.
- `logging.dfy` (`Logging`): `cp_to_clog`, `clog_to_cp`.

Two behaviours of the code are worth naming:

- `EnableAddon` (`xbmc/addons/AddonManager.cpp:784-802`) has no guard, unlike
  `DisableAddon`: enabling needs only the database write, and there is no
  counterpart of `CanAddonBeDisabled`.
- Refreshing the addon list (`FindAddons`) reports only whether C-Pluff is
  loaded, not whether anything changed. That operation is left out.

## Model

| member | source | states |
|---|---|---|
| Collections.Emplace | xbmc/addons/AddonManager.cpp:168-175 | emplace adds the key; every existing entry is kept; a new key gets the given value |
| Collections.FirstWith | xbmc/addons/AddonManager.cpp:168-175 | reference definition: the value of the earliest entry for a key, None iff no entry is for it |
| Collections.EmplaceAllFirstWins | xbmc/addons/AddonManager.cpp:168-175 | a sequence of emplaces holds a key iff it was there before or some entry is for it, and the value is the old one or that of the FIRST entry for it |
| UriUtils.AddFileToFolder | xbmc/addons/AddonManager.cpp:158-164 | the file is appended directly when the folder is empty or ends in `/` or `\`, and after a single "/" otherwise |
| StringUtils.Without | xbmc/addons/AddonManager.cpp:1004-1014 | the value with every separator removed: no separator remains and every other character keeps its number of occurrences |
| StringUtils.TokenizeFrom | xbmc/addons/AddonManager.cpp:1004-1014 | tokenising yields non-empty tokens without separators whose concatenation is the input with the separators removed |
| StringUtils.Tokenize | xbmc/addons/AddonManager.cpp:1004-1014 | the tokens are non-empty and separator-free, and joined with single separators they give the value with separator runs collapsed and both ends trimmed |
| StringUtils.TokenizeSqueeze | xbmc/addons/AddonManager.cpp:1004-1014 | for every value, joining the tokens with single separators gives the reference squeezed form (runs collapsed, ends trimmed) |
| StringUtils.TokenizeUnique | xbmc/addons/AddonManager.cpp:1004-1014 | the tokens are the only list of valid tokens that joins to the squeezed value, so the reference form fixes every token boundary |
| StringUtils.SqueezeExample | xbmc/addons/AddonManager.cpp:1004-1014 | leading, doubled and trailing spaces produce no empty tokens: " ab  c " gives ["ab", "c"] |
| StringUtils.TokenizeWord | xbmc/addons/AddonManager.cpp:1004-1014 | a separator-free prefix is consumed into the current token |
| StringUtils.TokenizeJoin | xbmc/addons/AddonManager.cpp:1004-1014 | tokenising the space-joined list of valid tokens gives the list back |
| StringUtils.SingleToken | xbmc/addons/AddonManager.cpp:1004-1014 | a non-empty value without spaces is a single token |
| Cpluff.GetExtValue | xbmc/addons/AddonManager.cpp:995-1002 | the configured value for the path, or "" when there is none |
| Cpluff.GetExtList | xbmc/addons/AddonManager.cpp:1004-1014 | false with an empty list iff the value is missing or empty; otherwise its words: non-empty, space-free, and joined with single spaces equal to the value with space runs collapsed and ends trimmed |
| Cpluff.ChildrenNamed | xbmc/addons/AddonManager.cpp:968-981 | exactly the children with the given name, each as often as it occurs among the children |
| Cpluff.ChildrenNamedAppend | xbmc/addons/AddonManager.cpp:974-979 | the matches of a concatenation are the matches of the first part followed by those of the second, so document order is kept |
| Cpluff.GetExtElements | xbmc/addons/AddonManager.cpp:968-981 | nothing for a null element; otherwise the ordered matches `ChildrenNamed` gives, each as often as it occurs, and true iff there is one |
| Cpluff.GetExtension | xbmc/addons/AddonManager.cpp:983-993 | the first extension attached to the point, None iff there is none |
| Platform.SupportedPlatforms | xbmc/addons/AddonManager.cpp:929-954 | the host's platform set is exactly "all" plus the tags of the host |
| LocaleText.LangKey | xbmc/addons/AddonManager.cpp:880-887 | a tag the locale matches is kept under its own name; an absent, "en" or "en_GB" tag is filed under en_GB and "no" under nb_NO; any other tag is dropped |
| LocaleText.GetTranslatedString | xbmc/addons/AddonManager.cpp:869-906 | the result is "" or the text of some child with the requested name |
| LocaleText.ChosenTextUnique | xbmc/addons/AddonManager.cpp:891-905 | at most one text is the chosen text for a tag |
| LocaleText.FirstFiledUnder | xbmc/addons/AddonManager.cpp:875-889 | the position of the first element of the tag filed under a language, when one exists |
| LocaleText.TranslatedValuesSpec | xbmc/addons/AddonManager.cpp:874-889 | the table holds exactly the declared languages, and each maps to the text of the FIRST child filed under it |
| LocaleText.TranslatedStringChoice | xbmc/addons/AddonManager.cpp:891-905 | the result is the text of the first child filed under the best-matching language (en_GB when none matches), or "" when none is |
| LocaleText.EnglishFallback | xbmc/addons/AddonManager.cpp:896-903 | with an en_GB and a non-matching French text, the English text is chosen |
| Translator.FirstExtPointFrom | xbmc/addons/AddonManager.cpp:85-97 | the first position from a start that is not a metadata point and, unless the kind is Unknown, translates to the kind; None iff there is none |
| Translator.GetFirstExtPoint | xbmc/addons/AddonManager.cpp:83-98 | never a metadata point; the first non-metadata point for Unknown, the first of the requested kind otherwise; None iff none qualifies |
| Translator.UnknownTakesFirstNonMetadata | xbmc/addons/AddonManager.cpp:85-92 | with Unknown, the first non-metadata extension is chosen |
| Translator.MetadataExtension | xbmc/addons/AddonManager.cpp:180-182 | the FIRST extension of the plug-in at the xbmc metadata point, else the first at the kodi one; None iff there is no metadata extension |
| Translator.PlatformSupportsAddon | xbmc/addons/AddonManager.cpp:912-958 | supported iff no platform list is declared or some declared tag is a host platform; "all" is always supported |
| Translator.AndroidOnlyRefusedOnLinux | xbmc/addons/AddonManager.cpp:912-958 | an addon that declares only "android" is refused on a Linux host |
| Translator.PlatformLibraryName | xbmc/addons/AddonManager.cpp:1016-1043 | the first non-empty value among the host's library keys in fallback order, "" iff all are empty |
| Translator.LibraryName | xbmc/addons/AddonManager.cpp:124-127 | "@library" when set, otherwise the platform library name; "" iff all are empty |
| Translator.DependenciesFirstWins | xbmc/addons/AddonManager.cpp:166-178 | the dependencies are exactly the imports with an id; a repeated id keeps its first import's version ("0.0.0" when missing) and optional flag |
| Translator.ApplyMetadata | xbmc/addons/AddonManager.cpp:183-206 | applying the metadata never touches identity, kind, extension point, library, versions, name, author, path or dependencies |
| Translator.FillCpluffMetadata | xbmc/addons/AddonManager.cpp:142-207 | the id is the descriptor's identifier; kind, extension point, library name and extra kinds are kept |
| Translator.FillAssetPaths | xbmc/addons/AddonManager.cpp:158-205 | path, icon, fanart and changelog are set only for a non-empty plug-in path, and each asset is cleared by its "no*" flag |
| Translator.FillDependencies | xbmc/addons/AddonManager.cpp:166-178 | whatever the builder held, the dependencies are exactly the imports that name a plug-in, and a repeated id keeps its first import's version ("0.0.0" when missing) and optional flag |
| Translator.FillMetadataTexts | xbmc/addons/AddonManager.cpp:180-198 | without metadata the texts stay as built; with it, summary, description and disclaimer are each the first text filed under the best-matching language (else en_GB) or "", license and broken are the metadata values or "", and a non-empty language replaces the extra info by that one entry |
| Translator.ApplyMetadataTexts | xbmc/addons/AddonManager.cpp:183-198 | applying a metadata element sets summary, description and disclaimer to the chosen-language text, license and broken to the element's values or "", and the extra info to the language entry when one is given |
| Translator.FillIdempotent | xbmc/addons/AddonManager.cpp:142-207 | filling a builder a second time from the same descriptor changes nothing |
| Translator.Factory | xbmc/addons/AddonManager.cpp:106-140 | an addon iff the descriptor and its id exist, its platform is supported and, for a requested kind, a non-metadata point of that kind exists; it carries the descriptor's id and the kind and point of the first qualifying extension, the library name that extension's element gives, and otherwise exactly what filling the builder from the descriptor gives; with no point chosen, the builder's kind, point and library name are kept |
| Registry.GetAddon | xbmc/addons/AddonManager.cpp:572-599 | found only for a known descriptor that Factory accepts, and not when it is disabled and only enabled addons are wanted |
| Registry.CanAddonBeDisabled | xbmc/addons/AddonManager.cpp:810-844 | false for an empty id, a missing addon, or one in use; otherwise true for PVR, ADSP, audio decoder and encoder kinds, else iff outside the system addons path |
| Registry.DisableAddon | xbmc/addons/AddonManager.cpp:762-782 | an already disabled id is a success with no change; otherwise success iff guard and write succeed, and then exactly the id is added; the blacklist never changes |
| Registry.EnableAddon | xbmc/addons/AddonManager.cpp:784-802 | an id not disabled is a success with no change; otherwise success iff the write succeeds, and then exactly the id is removed |
| Registry.SystemAddonNeverDisabled | xbmc/addons/AddonManager.cpp:810-844 | an ordinary addon in the system path is refused and the state stays the same |
| Registry.AlwaysDisablableUnderSystemPath | xbmc/addons/AddonManager.cpp:810-844 | an always-disablable addon not in use is disabled even in the system path |
| Registry.DisableIdempotent | xbmc/addons/AddonManager.cpp:762-782 | a second disable succeeds without a write and without a change |
| Registry.DisableThenEnable | xbmc/addons/AddonManager.cpp:762-802 | enabling right after a disable restores the state exactly |
| Registry.AddToUpdateBlacklist | xbmc/addons/AddonManager.cpp:748-754 | an already listed id is a success with no change; otherwise success iff the write succeeds, and then only the blacklist gains the id |
| Registry.RemoveFromUpdateBlacklist | xbmc/addons/AddonManager.cpp:740-746 | an unlisted id is a success with no change; otherwise success iff the write succeeds, and then only the blacklist loses the id |
| Registry.BlacklistRoundTrip | xbmc/addons/AddonManager.cpp:740-754 | blacklisting then unblacklisting an unlisted id restores the state |
| Registry.OnPostUnInstall | xbmc/addons/AddonManager.cpp:733-738 | the id leaves both sets; every other id keeps its membership in each |
| Registry.UninstallLeavesNothingToUndo | xbmc/addons/AddonManager.cpp:733-738 | after an uninstall, enable and unblacklist of that id are changeless successes |
| Registry.CanAddonBeInstalled | xbmc/addons/AddonManager.cpp:852-867 | true iff the addon exists, is not installed and has no broken reason |
| Registry.GetInstallableAddons | xbmc/addons/AddonManager.cpp:501-524 | false iff the repository cannot be read; otherwise exactly the repository entries of the kind (any for Unknown) that can be installed |
| Registry.ResolveAll | xbmc/addons/AddonManager.cpp:535-569 | the result holds exactly the addons some database entry resolves to, and is no longer than the entries |
| Registry.HasAddonsExact | xbmc/addons/AddonManager.cpp:381-391 | having enabled addons of a kind implies having installed ones; installed without enabled means all are disabled |
| Registry.GetAddonsInternalSound | xbmc/addons/AddonManager.cpp:526-570 | every addon returned has a non-metadata extension point, the requested kind, and is enabled when only enabled addons were asked for |
| Registry.KeepDisabled | xbmc/addons/AddonManager.cpp:484-494 | exactly the addons whose id is disabled |
| Registry.GetDisabledAddons | xbmc/addons/AddonManager.cpp:484-494 | false iff nothing of the kind is installed; the list is exactly the installed addons of the kind that are disabled |
| Registry.ResolveEnabledOnly | xbmc/addons/AddonManager.cpp:539-555 | asking for enabled addons only drops exactly the entries that resolve to a disabled id |
| Registry.EnabledDisabledPartition | xbmc/addons/AddonManager.cpp:459-494 | enabled addons are exactly the installed ones not disabled, and every installed addon is enabled or listed as disabled |
| Updates.NewerEntries | xbmc/addons/AddonManager.cpp:442-449 | an entry is listed iff it is the repository entry for some installed addon's id and is strictly newer |
| Updates.HasAvailableUpdatesExact | xbmc/addons/AddonManager.cpp:454-457 | true iff some enabled addon's repository entry is strictly newer |
| Updates.AvailableUpdatesExact | xbmc/addons/AddonManager.cpp:436-452 | an update is listed iff it is the repository entry for an installed, enabled addon and its version is strictly greater |
| Updates.EqualOrLowerNeverOffered | xbmc/addons/AddonManager.cpp:436-452 | under a strict order, an equal or lower repository version is never listed |
| Services.StartServices | xbmc/addons/AddonManager.cpp:1113-1134 | false when no service is enabled; otherwise every service of the phase is started and the result is true iff all starts succeed |
| Services.StopServices | xbmc/addons/AddonManager.cpp:1136-1154 | every enabled service is stopped, or only the login-phase ones when asked |
| Services.LogoutStopsLoginServices | xbmc/addons/AddonManager.cpp:1127-1150 | the services stopped at logout are exactly those started after login |
| Defaults.GetDefaultKey | xbmc/addons/AddonManager.cpp:602-637 | a setting exists exactly for the visualisation, screensaver, five scraper, web interface and language kinds |
| Defaults.SetDefaultKey | xbmc/addons/AddonManager.cpp:640-681 | a setting exists exactly for the visualisation, screensaver, five scraper, language, weather, skin and UI sounds kinds |
| Defaults.SetDefaultKeyInjective | xbmc/addons/AddonManager.cpp:640-681 | distinct kinds never share a setting |
| Defaults.GetDefault | xbmc/addons/AddonManager.cpp:602-638 | nothing for a kind without a setting; otherwise the enabled addon of that kind named by the value stored under the kind's setting key ("" when unwritten), so a result is enabled and of the requested kind |
| Defaults.SetDefault | xbmc/addons/AddonManager.cpp:640-682 | true iff the kind has a setting; then that setting reads back the id and no other setting changes |
| Defaults.SetThenGetDefault | xbmc/addons/AddonManager.cpp:602-682 | for a kind in both tables, reading after writing looks up the id just written |
| Defaults.DefaultTablesDiffer | xbmc/addons/AddonManager.cpp:602-682 | only the web interface is read-only, only weather, skin and UI sounds are write-only, and shared kinds use the same setting |
| Defaults.SetDefaultLeavesOtherKinds | xbmc/addons/AddonManager.cpp:640-682 | setting one kind's default never changes what another kind's default reads |
| Logging.CpToClog | xbmc/addons/AddonManager.cpp:1156-1161 | errors are logged at info level, every other severity at debug level |
| Logging.ClogToCp | xbmc/addons/AddonManager.cpp:1163-1168 | informational and up at debug log level and above; errors only below |
| Logging.ForwardedMessages | xbmc/addons/AddonManager.cpp:1156-1168 | at normal level only errors pass, and they log at info; at debug level everything but debug messages passes |

## Left out

- `Init`, `DeInit` and the C-Pluff set-up: loading the library, registering collections, and the logger and fatal-error callbacks. This is foreign library plumbing; the model starts from the descriptors C-Pluff yields.
- `cp_logger` and `cp_fatalErrorHandler`: they only write to the log.
- `CheckUserDirs` and the settings-element lookup that feeds it in `Factory` (`GetExtElement`): filesystem directory creation.
- `FindAddons`, `FindAddonsAndNotify` and `UnregisterAddon`: they rescan C-Pluff and synchronise the database. The model takes the resulting descriptor map and installed list as given.
- `LoadAddonDescription`, `AddonsFromRepoXML` and `LoadAddonDescriptionFromMemory`: these serialise through an external XML parser.
- The callback registry (`GetCallbackForType`, `RegisterAddonMgrCallback`, `UnregisterAddonMgrCallback`), `AddToUpdateableAddons`, `RemoveFromUpdateableAddons` and `ReloadSettings`: they keep pointers to live objects and hold no decision logic.
- Locking, observer notifications, the event log, and the `OnEnabled`/`OnDisabled` hooks: concurrency and side effects outside the manager's state.
- The running-instance substitution in `GetAddonsInternal` and `GetAddon`, and the `Start`/`Stop` effects of services: these act on live objects. Only the phase selection and the conjunction of start results are kept.
- `GetTranslatedString`'s null-root branch: every configuration element the model holds exists.
- `CAddonBuilder::Build`, `AddonVersion`, `CLocale`, `TranslateType` and `CSettings` are not part of this model. The build is taken to always succeed, and version order and locale matching are parameters.
- Of the string helpers, only three behaviours are modelled: `StringUtils::StartsWith`, `StringUtils::Tokenize` with a single delimiter character, and `URIUtils::AddFileToFolder`. Tokenising with a set of several delimiters, and every other `StringUtils` and `URIUtils` function, are not modelled.
- UriUtils.AddFileToFolder: covers plain folder paths only. It does not model DOS-style folders that get a `\` separator, URL folders whose options must stay at the end, or the normalisation of slash direction. It always inserts "/", so a Windows folder such as `C:\Kodi\addons\skin.x` gets a mixed-separator path.
- Output vectors are modelled as starting empty. A caller that passes a non-empty vector to `GetAddonsInternal`, `GetDisabledAddons` or `GetInstallableAddons` gets the new addons appended, and for `GetAddonsInternal` a true result. The same holds for `GetExtElements`, which appends to the caller's `elements` and returns whether that vector is non-empty afterwards; the model's result holds only the elements found and reports whether any were.
- Services.StartServices: the dynamic cast to a service object is taken to always succeed. Every addon of the service kind is built as a service.
- Updates.EqualOrLowerNeverOffered: needs the repository map to file each entry under its own id, as the database's lookup by id does.

=== FILE: addon_types.dfy ===
/**
 The addon record the manager builds (the fields `CAddonBuilder` is given in
 `AddonManager.cpp`), the capability kinds it distinguishes, versions and dependencies.
 */
module AddonTypes {
  import opened Wrappers
  import opened Cpluff

  /**
   The capability kinds `AddonManager.cpp` names. `Unknown` is the wildcard used in
   queries; `OtherKind` stands for the remaining kinds of the closed set, which
   it never distinguishes.
   */
  datatype AddonType =
    | Unknown
    | Visualisation
    | Screensaver
    | ScraperAlbums
    | ScraperArtists
    | ScraperMovies
    | ScraperMusicVideos
    | ScraperTvShows
    | WebInterface
    | ResourceLanguage
    | ResourceUISounds
    | ScriptWeather
    | Skin
    | PvrDll
    | AdspDll
    | AudioDecoder
    | AudioEncoder
    | Repository
    | Service
    | OtherKind(code: nat)

  /** An `AddonVersion`, kept as its text; its order is supplied where it is needed. */
  datatype Version = Version(text: string)

  /** The version an addon or dependency has when none is declared. */
  const ZeroVersion: Version := Version("0.0.0")

  /** One entry of `ADDONDEPS`: the minimum version and whether the import is optional. */
  datatype Dependency = Dependency(minVersion: Version, optional: bool)

  /**
   An addon as built by `CAddonBuilder`. `extraTypes` holds the extra kinds for
   which `IsType` answers true besides the main kind.
   */
  datatype AddonInfo = AddonInfo(
    id: string,
    addonType: AddonType,
    version: Version,
    minVersion: Version,
    name: string,
    author: string,
    path: string,
    icon: string,
    fanart: string,
    changelog: string,
    libName: string,
    extPoint: Option<Extension>,
    dependencies: map<string, Dependency>,
    summary: string,
    description: string,
    disclaimer: string,
    license: string,
    extraInfo: map<string, string>,
    broken: string,
    extraTypes: set<AddonType>)

  /** A builder nothing has been set on. */
  const EmptyBuilder: AddonInfo :=
    AddonInfo("", Unknown, ZeroVersion, ZeroVersion, "", "", "", "", "", "", "",
              None, map[], "", "", "", "", map[], "", {})

  /** `IAddon::IsType`. */
  predicate IsType(a: AddonInfo, t: AddonType) {
    a.addonType == t || t in a.extraTypes
  }
}

=== FILE: collections.dfy ===
/**
 Building a `std::map` entry by entry with `emplace`/`insert`, which never
 overwrite an existing key: for a repeated key the first entry wins. Both the
 dependency table of a descriptor and the per-language text table are built
 this way, so the rule is stated and proved once here.

 An entry sequence holds `None` for an input element the loop skips and
 `Some((k, v))` for an element it inserts.
 */
module Collections {
  import opened Wrappers

  /** True if `e` is an entry filed under key `k`. */
  predicate IsEntryFor<K(==), V>(e: Option<(K, V)>, k: K) {
    e.Some? && e.value.0 == k
  }

  /** `m.emplace(k, v)`: inserts only when the key is absent. */
  function Emplace<K(==), V>(m: map<K, V>, k: K, v: V): (r: map<K, V>)
    ensures r.Keys == m.Keys + {k}
    ensures forall j :: j in m ==> r[j] == m[j]
    ensures k !in m ==> r[k] == v
  {
    if k in m then m else m[k := v]
  }

  /** Emplaces every entry of `entries` into `m`, front to back. */
  function EmplaceAll<K(==), V>(m: map<K, V>, entries: seq<Option<(K, V)>>): map<K, V>
    decreases |entries|
  {
    if |entries| == 0 then m
    else
      var m' := if entries[0].Some? then Emplace(m, entries[0].value.0, entries[0].value.1) else m;
      EmplaceAll(m', entries[1..])
  }

  /** Reference definition: the value of the earliest entry filed under `k`. */
  function FirstWith<K(==), V>(entries: seq<Option<(K, V)>>, k: K): (r: Option<V>)
    ensures r.None? <==> forall i :: 0 <= i < |entries| ==> !IsEntryFor(entries[i], k)
    ensures r.Some? ==>
      exists i :: 0 <= i < |entries| && entries[i] == Some((k, r.value))
        && forall j :: 0 <= j < i ==> !IsEntryFor(entries[j], k)
    decreases |entries|
  {
    if |entries| == 0 then None
    else if IsEntryFor(entries[0], k) then Some(entries[0].value.1)
    else
      var r := FirstWith(entries[1..], k);
      assert forall i :: 1 <= i < |entries| ==> entries[i] == entries[1..][i - 1];
      r
  }

  /**
   Emplacing a sequence of entries keeps the keys already present and adds,
   for every other key, the value of the FIRST entry filed under it.
   */
  lemma {:induction false} EmplaceAllFirstWins<K, V>(m: map<K, V>, entries: seq<Option<(K, V)>>)
    ensures forall k :: k in EmplaceAll(m, entries) <==> k in m || FirstWith(entries, k).Some?
    ensures forall k :: k in EmplaceAll(m, entries) ==>
      EmplaceAll(m, entries)[k] == if k in m then m[k] else FirstWith(entries, k).value
    decreases |entries|
  {
    if |entries| > 0 {
      var m' := if entries[0].Some? then Emplace(m, entries[0].value.0, entries[0].value.1) else m;
      EmplaceAllFirstWins(m', entries[1..]);
      forall k
        ensures FirstWith(entries, k) ==
          if IsEntryFor(entries[0], k) then Some(entries[0].value.1) else FirstWith(entries[1..], k)
      {
      }
    }
  }
}

=== FILE: cpluff.dfy ===
/**
 The plug-in descriptors the C-Pluff library hands to the addon manager, and
 the manager's own accessors over them (`GetExtension`, `GetExtValue`,
 `GetExtList`). Only the fields the manager reads are kept; a C null pointer
 is `None`.
 */
module Cpluff {
  import opened Wrappers
  import opened StringUtils

  /** A child element of a configuration element: its name, `@lang` attribute and text. */
  datatype CfgChild = CfgChild(name: string, lang: Option<string>, value: Option<string>)

  /**
   A configuration element. `values` answers `lookup_cfg_value` for the paths
   the manager asks about (an absent key is a null answer); `children` are the
   direct child elements in document order.
   */
  datatype Config = Config(values: map<string, string>, children: seq<CfgChild>)

  /** An extension: the id of the extension point it attaches to, and its configuration. */
  datatype Extension = Extension(pointId: string, config: Config)

  /** An `<import>` of another plug-in; `optional` is the C flag `optional != 0`. */
  datatype Import = Import(pluginId: Option<string>, version: Option<string>, optional: bool)

  /** `cp_plugin_info_t`. */
  datatype Plugin = Plugin(
    identifier: Option<string>,
    version: Option<string>,
    abiCompatibility: Option<string>,
    name: Option<string>,
    provider: Option<string>,
    pluginPath: Option<string>,
    imports: seq<Import>,
    extensions: seq<Extension>)

  /** `GetExtValue`: the looked-up value, or "" when there is none. */
  function GetExtValue(base: Config, path: string): (r: string)
    ensures path !in base.values ==> r == ""
    ensures path in base.values ==> r == base.values[path]
  {
    if path in base.values then base.values[path] else ""
  }

  /**
   `GetExtList`: false (and an empty list) when the value is missing or empty;
   otherwise true with the value split on single spaces.
   */
  function GetExtList(base: Config, path: string): (r: (bool, seq<string>))
    ensures r.0 <==> GetExtValue(base, path) != ""
    ensures !r.0 ==> r.1 == []
    ensures ValidTokens(r.1, ' ')
    ensures Concat(r.1) == Without(GetExtValue(base, path), ' ')
    ensures Join(r.1, ' ') == Squeeze(GetExtValue(base, path), ' ')
  {
    var all := GetExtValue(base, path);
    if all == "" then (false, []) else (true, Tokenize(all, ' '))
  }

  /**
   The children of a configuration element named `name`: every match, repeats
   included, in document order (`ChildrenNamedAppend` gives the order).
   */
  function ChildrenNamed(children: seq<CfgChild>, name: string): (r: seq<CfgChild>)
    ensures |r| <= |children|
    ensures forall c :: c in r <==> c in children && c.name == name
    ensures forall c :: multiset(r)[c] == if c.name == name then multiset(children)[c] else 0
    decreases |children|
  {
    if |children| == 0 then []
    else
      var rest := ChildrenNamed(children[1..], name);
      assert children == [children[0]] + children[1..];
      assert forall c :: c in children <==> c == children[0] || c in children[1..];
      if children[0].name == name then [children[0]] + rest else rest
  }

  /** Selecting children distributes over concatenation, so the matches keep their order. */
  lemma {:induction false} ChildrenNamedAppend(a: seq<CfgChild>, b: seq<CfgChild>, name: string)
    ensures ChildrenNamed(a + b, name) == ChildrenNamed(a, name) + ChildrenNamed(b, name)
    decreases |a|
  {
    if |a| == 0 {
      assert a + b == b;
    } else {
      assert (a + b)[1..] == a[1..] + b;
      ChildrenNamedAppend(a[1..], b, name);
    }
  }

  /**
   `GetExtElements`: the children of `base` named `path`, and whether there
   are any; nothing for a null element.
   */
  function GetExtElements(base: Option<Config>, path: string): (r: (bool, seq<CfgChild>))
    ensures r.0 <==> |r.1| > 0
    ensures base.None? ==> r == (false, [])
    ensures base.Some? ==> forall c :: c in r.1 <==> c in base.value.children && c.name == path
    ensures base.Some? ==> r.1 == ChildrenNamed(base.value.children, path)
    ensures base.Some? ==> forall c :: multiset(r.1)[c] == if c.name == path then multiset(base.value.children)[c] else 0
  {
    if base.None? then (false, [])
    else
      var elements := ChildrenNamed(base.value.children, path);
      (|elements| > 0, elements)
  }

  /** `GetExtension`: the first extension attached to extension point `id`. */
  function GetExtension(exts: seq<Extension>, id: string): (r: Option<Extension>)
    ensures r.None? <==> forall i :: 0 <= i < |exts| ==> exts[i].pointId != id
    ensures r.Some? ==>
      exists i :: 0 <= i < |exts| && exts[i] == r.value && r.value.pointId == id
        && forall j :: 0 <= j < i ==> exts[j].pointId != id
    decreases |exts|
  {
    if |exts| == 0 then None
    else if exts[0].pointId == id then Some(exts[0])
    else
      assert forall i :: 1 <= i < |exts| ==> exts[i] == exts[1..][i - 1];
      GetExtension(exts[1..], id)
  }
}

=== FILE: defaults.dfy ===
/**
 `GetDefault` and `SetDefault`: the settings that name the default addon of
 a kind. The settings store is a map from setting key to its string value;
 a key it does not hold reads as the empty string.
 */
module Defaults {
  import opened Wrappers
  import opened AddonTypes
  import opened Translator
  import opened Registry

  /** The settings that hold a default addon id. */
  datatype SettingKey =
    | MusicPlayerVisualisation
    | ScreensaverMode
    | MusicLibraryAlbumsScraper
    | MusicLibraryArtistsScraper
    | ScrapersMoviesDefault
    | ScrapersMusicVideosDefault
    | ScrapersTvShowsDefault
    | ServicesWebSkin
    | LocaleLanguage
    | WeatherAddon
    | LookAndFeelSkin
    | LookAndFeelSoundSkin

  type Settings = map<SettingKey, string>

  function ReadSetting(s: Settings, k: SettingKey): string {
    if k in s then s[k] else ""
  }

  /** The setting `GetDefault` reads for a kind; None when it has none. */
  function GetDefaultKey(t: AddonType): (r: Option<SettingKey>)
    ensures r.Some? <==> t in {Visualisation, Screensaver, ScraperAlbums, ScraperArtists, ScraperMovies,
                               ScraperMusicVideos, ScraperTvShows, WebInterface, ResourceLanguage}
  {
    match t
    case Visualisation => Some(MusicPlayerVisualisation)
    case Screensaver => Some(ScreensaverMode)
    case ScraperAlbums => Some(MusicLibraryAlbumsScraper)
    case ScraperArtists => Some(MusicLibraryArtistsScraper)
    case ScraperMovies => Some(ScrapersMoviesDefault)
    case ScraperMusicVideos => Some(ScrapersMusicVideosDefault)
    case ScraperTvShows => Some(ScrapersTvShowsDefault)
    case WebInterface => Some(ServicesWebSkin)
    case ResourceLanguage => Some(LocaleLanguage)
    case _ => None
  }

  /** The setting `SetDefault` writes for a kind; None when it has none. */
  function SetDefaultKey(t: AddonType): (r: Option<SettingKey>)
    ensures r.Some? <==> t in {Visualisation, Screensaver, ScraperAlbums, ScraperArtists, ScraperMovies,
                               ScraperMusicVideos, ScraperTvShows, ResourceLanguage, ScriptWeather,
                               Skin, ResourceUISounds}
  {
    match t
    case Visualisation => Some(MusicPlayerVisualisation)
    case Screensaver => Some(ScreensaverMode)
    case ScraperAlbums => Some(MusicLibraryAlbumsScraper)
    case ScraperArtists => Some(MusicLibraryArtistsScraper)
    case ScraperMovies => Some(ScrapersMoviesDefault)
    case ScraperMusicVideos => Some(ScrapersMusicVideosDefault)
    case ScraperTvShows => Some(ScrapersTvShowsDefault)
    case ResourceLanguage => Some(LocaleLanguage)
    case ScriptWeather => Some(WeatherAddon)
    case Skin => Some(LookAndFeelSkin)
    case ResourceUISounds => Some(LookAndFeelSoundSkin)
    case _ => None
  }

  /** Distinct kinds never share a setting. */
  lemma SetDefaultKeyInjective(t: AddonType, u: AddonType)
    requires SetDefaultKey(t).Some? && SetDefaultKey(t) == SetDefaultKey(u)
    ensures t == u
  {
  }

  /**
   `GetDefault(type, addon)`: the enabled addon of that kind named by the
   kind's setting; nothing for a kind without a setting.
   */
  function GetDefault(settings: Settings, env: Env, st: State, t: AddonType): (r: Option<AddonInfo>)
    ensures GetDefaultKey(t).None? ==> r.None?
    ensures r.Some? ==> r.value.id !in st.disabled && r.value.addonType == t
    ensures GetDefaultKey(t).Some? ==> r == GetAddon(env, st, ReadSetting(settings, GetDefaultKey(t).value), t, true)
  {
    match GetDefaultKey(t)
    case None => None
    case Some(k) =>
      var r := GetAddon(env, st, ReadSetting(settings, k), t, true);
      if r.Some? then
        assert Factory(Some(env.plugins[ReadSetting(settings, k)]), t, env.host, EmptyBuilder).value.addonType == t;
        r
      else r
  }

  /**
   `SetDefault(type, addonID)`: writes the id to the kind's setting and
   succeeds, or fails and leaves the settings alone for a kind without one.
   */
  function SetDefault(settings: Settings, t: AddonType, id: string): (r: (bool, Settings))
    ensures r.0 <==> SetDefaultKey(t).Some?
    ensures r.0 ==> ReadSetting(r.1, SetDefaultKey(t).value) == id
    ensures forall k :: SetDefaultKey(t) != Some(k) ==> ReadSetting(r.1, k) == ReadSetting(settings, k)
  {
    match SetDefaultKey(t)
    case None => (false, settings)
    case Some(k) => (true, settings[k := id])
  }

  /**
   For the kinds both tables know, setting a default and reading it back looks
   up the id just written.
   */
  lemma SetThenGetDefault(settings: Settings, env: Env, st: State, t: AddonType, id: string)
    requires GetDefaultKey(t).Some? && SetDefaultKey(t).Some?
    ensures GetDefault(SetDefault(settings, t, id).1, env, st, t) == GetAddon(env, st, id, t, true)
  {
  }

  /** The two tables disagree only on these kinds. */
  lemma DefaultTablesDiffer(t: AddonType)
    ensures GetDefaultKey(t).Some? && SetDefaultKey(t).None? <==> t == WebInterface
    ensures GetDefaultKey(t).None? && SetDefaultKey(t).Some? <==> t in {ScriptWeather, Skin, ResourceUISounds}
    ensures GetDefaultKey(t).Some? && SetDefaultKey(t).Some? ==> GetDefaultKey(t) == SetDefaultKey(t)
  {
  }

  /**
   Setting one kind's default never changes what another kind's default
   reads.
   */
  lemma SetDefaultLeavesOtherKinds(settings: Settings, env: Env, st: State, t: AddonType, u: AddonType, id: string)
    requires t != u
    ensures GetDefault(SetDefault(settings, t, id).1, env, st, u) == GetDefault(settings, env, st, u)
  {
    if SetDefaultKey(t).Some? && GetDefaultKey(u).Some? {
      assert SetDefaultKey(t) != GetDefaultKey(u);
    }
  }
}

=== FILE: locale_text.dfy ===
/**
 `GetTranslatedString`: picking, for one metadata field, the text written in
 the language that suits the current locale best.
 */
module LocaleText {
  import opened Wrappers
  import opened Collections
  import opened Cpluff
  import opened Platform

  /** The language used when nothing else matches, and the target of the "en" alias. */
  const EnGB: string := "en_GB"

  /** The target of the historical "no" alias. */
  const NbNO: string := "nb_NO"

  /**
   The language a child's text is filed under, or None when the child is
   dropped: a tag the locale matches keeps its own name; otherwise an absent
   tag, "en" or "en_GB" is filed as "en_GB", "no" as "nb_NO", and any other
   tag is dropped.
   */
  function LangKey(c: CfgChild, locale: Locale): (r: Option<string>)
    ensures c.lang.Some? && locale.matches(c.lang.value) ==> r == c.lang
    ensures r.Some? ==> r == c.lang || r.value == EnGB || r.value == NbNO
    ensures c.lang.None? ==> r == Some(EnGB)
    ensures c.lang.Some? && !locale.matches(c.lang.value) && (c.lang.value == "en" || c.lang.value == EnGB) ==> r == Some(EnGB)
    ensures c.lang.Some? && !locale.matches(c.lang.value) && c.lang.value == "no" ==> r == Some(NbNO)
    ensures r.None? <==>
      c.lang.Some? && !locale.matches(c.lang.value) && c.lang.value != "en" && c.lang.value != EnGB && c.lang.value != "no"
  {
    if c.lang.Some? && locale.matches(c.lang.value) then c.lang
    else if c.lang.None? || c.lang.value == "en" || c.lang.value == EnGB then Some(EnGB)
    else if c.lang.value == "no" then Some(NbNO)
    else None
  }

  /** A child's text; a child without text contributes "". */
  function TextOf(c: CfgChild): string {
    c.value.GetOr("")
  }

  /** True if child `c` is an element `tag` whose text is filed under language `key`. */
  predicate FiledUnder(c: CfgChild, tag: string, locale: Locale, key: string) {
    c.name == tag && LangKey(c, locale) == Some(key)
  }

  /** What the loop over the children inserts for child `c`, if anything. */
  function Entry(c: CfgChild, tag: string, locale: Locale): Option<(string, string)> {
    if c.name != tag then None
    else
      match LangKey(c, locale)
      case None => None
      case Some(k) => Some((k, TextOf(c)))
  }

  /** The entries of all children, in document order. */
  function Entries(children: seq<CfgChild>, tag: string, locale: Locale): (r: seq<Option<(string, string)>>)
    ensures |r| == |children|
    ensures forall i :: 0 <= i < |r| ==> r[i] == Entry(children[i], tag, locale)
  {
    seq(|children|, i requires 0 <= i < |children| => Entry(children[i], tag, locale))
  }

  /** The languages some element `tag` is filed under. */
  function DeclaredLanguages(children: seq<CfgChild>, tag: string, locale: Locale): set<string> {
    set i | 0 <= i < |children| && children[i].name == tag && LangKey(children[i], locale).Some?
      :: LangKey(children[i], locale).value
  }

  /** The language whose text is returned: the best match among those declared, else "en_GB". */
  function ChosenLanguage(children: seq<CfgChild>, tag: string, locale: Locale): string {
    var best := locale.bestMatch(DeclaredLanguages(children, tag, locale));
    if best == "" then EnGB else best
  }

  /**
   True if `t` is the text the lookup of `tag` should give: the text of the
   first element `tag` filed under the chosen language, or "" when there is
   none.
   */
  predicate IsChosenText(children: seq<CfgChild>, tag: string, locale: Locale, t: string) {
    var chosen := ChosenLanguage(children, tag, locale);
    && ((forall i :: 0 <= i < |children| ==> !FiledUnder(children[i], tag, locale, chosen)) ==> t == "")
    && (forall i :: 0 <= i < |children| && FiledUnder(children[i], tag, locale, chosen)
          && (forall j :: 0 <= j < i ==> !FiledUnder(children[j], tag, locale, chosen))
          ==> t == TextOf(children[i]))
  }

  /** At most one text is the chosen one. */
  lemma ChosenTextUnique(children: seq<CfgChild>, tag: string, locale: Locale, t1: string, t2: string)
    requires IsChosenText(children, tag, locale, t1) && IsChosenText(children, tag, locale, t2)
    ensures t1 == t2
  {
    var chosen := ChosenLanguage(children, tag, locale);
    if exists i :: 0 <= i < |children| && FiledUnder(children[i], tag, locale, chosen) {
      var i := FirstFiledUnder(children, tag, locale, chosen);
    }
  }

  /** The position of the first element `tag` filed under `key`, when there is one. */
  function FirstFiledUnder(children: seq<CfgChild>, tag: string, locale: Locale, key: string): (i: nat)
    requires exists i :: 0 <= i < |children| && FiledUnder(children[i], tag, locale, key)
    ensures i < |children| && FiledUnder(children[i], tag, locale, key)
    ensures forall j :: 0 <= j < i ==> !FiledUnder(children[j], tag, locale, key)
    decreases |children|
  {
    if FiledUnder(children[0], tag, locale, key) then 0
    else
      assert forall i :: 1 <= i < |children| ==> children[i] == children[1..][i - 1];
      1 + FirstFiledUnder(children[1..], tag, locale, key)
  }

  /** The language-to-text table of `GetTranslatedString`, built with first-wins insertion. */
  function TranslatedValues(children: seq<CfgChild>, tag: string, locale: Locale): map<string, string> {
    EmplaceAll(map[], Entries(children, tag, locale))
  }

  /**
   `GetTranslatedString(root, tag)`: the text of element `tag` in the best
   matching language, falling back to "en_GB", or "" when that language has no
   text. The result is always "" or the text of some element `tag`.
   */
  function GetTranslatedString(root: Config, tag: string, locale: Locale): (r: string)
    ensures r == "" || exists i :: 0 <= i < |root.children| && root.children[i].name == tag && TextOf(root.children[i]) == r
  {
    var translated := TranslatedValues(root.children, tag, locale);
    var best := locale.bestMatch(translated.Keys);
    var chosen := if best == "" then EnGB else best;
    EmplaceAllFirstWins(map[], Entries(root.children, tag, locale));
    if chosen in translated then translated[chosen] else ""
  }

  /** The table's keys are exactly the declared languages, and each holds the first text filed under it. */
  lemma TranslatedValuesSpec(children: seq<CfgChild>, tag: string, locale: Locale)
    ensures TranslatedValues(children, tag, locale).Keys == DeclaredLanguages(children, tag, locale)
    ensures forall k, i ::
              (k in TranslatedValues(children, tag, locale)
               && 0 <= i < |children| && FiledUnder(children[i], tag, locale, k)
               && (forall j :: 0 <= j < i ==> !FiledUnder(children[j], tag, locale, k)))
              ==> TranslatedValues(children, tag, locale)[k] == TextOf(children[i])
  {
    var es := Entries(children, tag, locale);
    EmplaceAllFirstWins(map[], es);
    assert forall i, k :: 0 <= i < |children| ==> (IsEntryFor(es[i], k) <==> FiledUnder(children[i], tag, locale, k));
    var tv := TranslatedValues(children, tag, locale);
    forall k | k in tv ensures k in DeclaredLanguages(children, tag, locale) {
      var i :| 0 <= i < |es| && IsEntryFor(es[i], k);
      assert LangKey(children[i], locale).value == k;
    }
    forall k | k in DeclaredLanguages(children, tag, locale) ensures k in tv {
      var i :| 0 <= i < |children| && children[i].name == tag && LangKey(children[i], locale).Some?
        && LangKey(children[i], locale).value == k;
      assert IsEntryFor(es[i], k);
    }
  }

  /**
   The returned text is that of the FIRST element `tag` filed under the chosen
   language (the best match among the declared languages, else "en_GB"), and
   "" when no element is filed under it.
   */
  lemma TranslatedStringChoice(root: Config, tag: string, locale: Locale)
    ensures var ch := root.children;
      var chosen := ChosenLanguage(ch, tag, locale);
      (forall i :: 0 <= i < |ch| ==> !FiledUnder(ch[i], tag, locale, chosen)) ==>
        GetTranslatedString(root, tag, locale) == ""
    ensures var ch := root.children;
      var chosen := ChosenLanguage(ch, tag, locale);
      forall i :: 0 <= i < |ch| && FiledUnder(ch[i], tag, locale, chosen)
        && (forall j :: 0 <= j < i ==> !FiledUnder(ch[j], tag, locale, chosen))
        ==> GetTranslatedString(root, tag, locale) == TextOf(ch[i])
  {
    var ch := root.children;
    TranslatedValuesSpec(ch, tag, locale);
    var chosen := ChosenLanguage(ch, tag, locale);
    if forall i :: 0 <= i < |ch| ==> !FiledUnder(ch[i], tag, locale, chosen) {
      assert chosen !in DeclaredLanguages(ch, tag, locale);
    }
  }

  /**
   A node with an "en_GB" text and a French text, read under a locale that
   does not match French, gives the English text.
   */
  lemma EnglishFallback(locale: Locale)
    requires SoundLocale(locale)
    requires !locale.matches("fr_FR")
    ensures GetTranslatedString(
              Config(map[], [CfgChild("summary", Some("en_GB"), Some("Hello")),
                             CfgChild("summary", Some("fr_FR"), Some("Bonjour"))]),
              "summary", locale) == "Hello"
  {
    var ch := [CfgChild("summary", Some("en_GB"), Some("Hello")),
               CfgChild("summary", Some("fr_FR"), Some("Bonjour"))];
    TranslatedStringChoice(Config(map[], ch), "summary", locale);
    assert LangKey(ch[0], locale) == Some(EnGB);
    assert LangKey(ch[1], locale) == None;
    assert DeclaredLanguages(ch, "summary", locale) == {EnGB};
    assert ChosenLanguage(ch, "summary", locale) == EnGB;
    assert FiledUnder(ch[0], "summary", locale, EnGB);
  }
}

=== FILE: logging.dfy ===
/**
 The bridge between C-Pluff's log severities and the host's log levels.
 The host's numeric levels come from its log header, which is not part of
 this model; the values below are the ones it defines.
 */
module Logging {
  /** `cp_log_severity_t`, in increasing severity. */
  datatype CpSeverity = CpDebug | CpInfo | CpWarning | CpError {
    function Rank(): nat {
      match this
      case CpDebug => 0
      case CpInfo => 1
      case CpWarning => 2
      case CpError => 3
    }
  }

  /** The message levels C-Pluff messages are logged at. */
  const LogDebug: int := 0
  const LogInfo: int := 1

  /** The host's configured log levels. */
  const LogLevelNormal: int := 0
  const LogLevelDebug: int := 1

  /** `cp_to_clog`: errors are logged at info level, everything else at debug level. */
  function CpToClog(s: CpSeverity): (r: int)
    ensures r == LogInfo <==> s == CpError
    ensures r == LogDebug <==> s != CpError
  {
    if s.Rank() >= CpError.Rank() then LogInfo else LogDebug
  }

  /**
   `clog_to_cp`: the lowest C-Pluff severity to forward — informational
   messages at debug log level and above, only errors otherwise.
   */
  function ClogToCp(level: int): (r: CpSeverity)
    ensures r == CpInfo <==> level >= LogLevelDebug
    ensures r == CpError <==> level < LogLevelDebug
  {
    if level >= LogLevelDebug then CpInfo else CpError
  }

  /** Whether C-Pluff passes a message of severity `s` to a logger registered at `min`. */
  predicate Forwarded(s: CpSeverity, min: CpSeverity) {
    s.Rank() >= min.Rank()
  }

  /**
   At the normal log level only errors are forwarded, and they surface at info
   level; at debug level every message from informational up is forwarded.
   */
  lemma ForwardedMessages(s: CpSeverity, level: int)
    ensures level < LogLevelDebug ==> (Forwarded(s, ClogToCp(level)) <==> s == CpError)
    ensures level < LogLevelDebug && Forwarded(s, ClogToCp(level)) ==> CpToClog(s) == LogInfo
    ensures level >= LogLevelDebug ==> (Forwarded(s, ClogToCp(level)) <==> s != CpDebug)
  {
  }
}

=== FILE: platform.dfy ===
/**
 What the manager takes from the running application rather than from a
 descriptor: the platform tags and library keys fixed at compile time, the
 system addons folder, the current locale and the extension-point-to-kind
 translation.
 */
module Platform {
  import opened AddonTypes

  /**
   The current locale (`g_langInfo.GetLocale()`): `matches` is `Matches`,
   `bestMatch` is `FindBestMatch`, which answers "" when nothing matches.
   */
  datatype Locale = Locale(matches: string -> bool, bestMatch: set<string> -> string)

  /** `FindBestMatch` only ever picks one of the offered languages, or "". */
  ghost predicate SoundLocale(locale: Locale) {
    forall s :: locale.bestMatch(s) == "" || locale.bestMatch(s) in s
  }

  /**
   The host. `platforms` are the tags the build adds after "all";
   `libraryKeys` are the platform-specific `@library_*` attributes in the order
   they are tried; `systemAddonsPath` is `special://xbmc/addons` translated;
   `translate` is `TranslateType` on extension point ids.
   */
  datatype Host = Host(
    platforms: set<string>,
    libraryKeys: seq<string>,
    systemAddonsPath: string,
    locale: Locale,
    translate: string -> AddonType)

  /** The platform tags an addon may declare to run on this host. */
  function SupportedPlatforms(host: Host): (r: set<string>)
    ensures "all" in r
    ensures host.platforms <= r
    ensures forall p :: p in r ==> p == "all" || p in host.platforms
  {
    {"all"} + host.platforms
  }
}

=== FILE: registry.dfy ===
/**
 The addon registry of `CAddonMgr`: lookups over the installed addons, the
 disabled and update-blacklist sets with their guarded transitions, and the
 install-eligibility filter over repository content.

 The registry's own state is the two sets. Everything it consults but does
 not own is an `Env`; each persistence call is a `dbOk` flag saying whether
 the database write succeeded.
 */
module Registry {
  import opened Wrappers
  import opened StringUtils
  import opened Cpluff
  import opened AddonTypes
  import opened Platform
  import opened Translator

  /**
   `plugins` answers C-Pluff's `get_plugin_info` by id; `installed` are the
   builders the database lists as installed, in its order; `inUse` holds the
   ids whose addon reports `IsInUse()`.
   */
  datatype Env = Env(host: Host, plugins: map<string, Plugin>, installed: seq<AddonInfo>, inUse: set<string>)

  /** `m_disabled` and `m_updateBlacklist`. */
  datatype State = State(disabled: set<string>, updateBlacklist: set<string>)

  /** What a state-changing call returns, and the state after it. */
  datatype Outcome = Outcome(ok: bool, state: State)

  /**
   `GetAddon(id, addon, type, enabledOnly)`: the addon built from the
   descriptor C-Pluff knows under `id`; with `enabledOnly` a disabled addon is
   not found.
   */
  function GetAddon(env: Env, st: State, id: string, t: AddonType, enabledOnly: bool): (r: Option<AddonInfo>)
    ensures r.Some? ==>
      && id in env.plugins
      && r == Factory(Some(env.plugins[id]), t, env.host, EmptyBuilder)
      && (enabledOnly ==> r.value.id !in st.disabled)
    ensures r.None? ==>
      || id !in env.plugins
      || Factory(Some(env.plugins[id]), t, env.host, EmptyBuilder).None?
      || (enabledOnly && Factory(Some(env.plugins[id]), t, env.host, EmptyBuilder).value.id in st.disabled)
  {
    if id !in env.plugins then None
    else
      match Factory(Some(env.plugins[id]), t, env.host, EmptyBuilder)
      case None => None
      case Some(a) => if enabledOnly && a.id in st.disabled then None else Some(a)
  }

  /** `IsAddonInstalled`: the addon can be looked up, whether enabled or not. */
  predicate IsAddonInstalled(env: Env, st: State, id: string) {
    GetAddon(env, st, id, Unknown, false).Some?
  }

  /** The kinds that may be disabled even when they live in the system addons folder. */
  predicate AlwaysDisablable(t: AddonType) {
    t == PvrDll || t == AdspDll || t == AudioDecoder || t == AudioEncoder
  }

  /**
   `CanAddonBeDisabled`: never for an empty id, an addon that is not
   installed, or one in use (checked before the kind); otherwise always for the
   always-disablable kinds, and for the other kinds only outside the system
   addons folder.
   */
  function CanAddonBeDisabled(env: Env, st: State, id: string): (r: bool)
    ensures id == "" ==> !r
    ensures !IsAddonInstalled(env, st, id) ==> !r
    ensures r <==>
      && id != "" && IsAddonInstalled(env, st, id)
      && var a := GetAddon(env, st, id, Unknown, false).value;
         && a.id !in env.inUse
         && (AlwaysDisablable(a.addonType) || !StartsWith(a.path, env.host.systemAddonsPath))
  {
    if id == "" then false
    else
      match GetAddon(env, st, id, Unknown, false)
      case None => false
      case Some(a) =>
        if a.id in env.inUse then false
        else if AlwaysDisablable(a.addonType) then true
        else !StartsWith(a.path, env.host.systemAddonsPath)
  }

  /**
   `DisableAddon`: an id already disabled is a success with no change.
   Otherwise the guard and then the database write must succeed, and only then
   is the id added; the blacklist never changes.
   */
  function DisableAddon(env: Env, st: State, id: string, dbOk: bool): (r: Outcome)
    ensures r.state.updateBlacklist == st.updateBlacklist
    ensures id in st.disabled ==> r == Outcome(true, st)
    ensures r.ok <==> id in st.disabled || (CanAddonBeDisabled(env, st, id) && dbOk)
    ensures r.ok ==> r.state.disabled == st.disabled + {id}
    ensures !r.ok ==> r.state == st
  {
    if id in st.disabled then Outcome(true, st)
    else if !CanAddonBeDisabled(env, st, id) then Outcome(false, st)
    else if !dbOk then Outcome(false, st)
    // `m_disabled.insert(id)` cannot find the id present: it was checked above
    else Outcome(true, st.(disabled := st.disabled + {id}))
  }

  /**
   `EnableAddon`: an id not disabled is a success with no change. Otherwise
   only the database write must succeed — there is no guard — and then the id
   is removed; the blacklist never changes.
   */
  function EnableAddon(st: State, id: string, dbOk: bool): (r: Outcome)
    ensures r.state.updateBlacklist == st.updateBlacklist
    ensures id !in st.disabled ==> r == Outcome(true, st)
    ensures r.ok <==> id !in st.disabled || dbOk
    ensures r.ok ==> r.state.disabled == st.disabled - {id}
    ensures !r.ok ==> r.state == st
  {
    if id !in st.disabled then Outcome(true, st)
    else if !dbOk then Outcome(false, st)
    else Outcome(true, st.(disabled := st.disabled - {id}))
  }

  /** An addon of an ordinary kind in the system addons folder is never disabled, whatever the database does. */
  lemma SystemAddonNeverDisabled(env: Env, st: State, id: string, a: AddonInfo, dbOk: bool)
    requires id !in st.disabled
    requires GetAddon(env, st, id, Unknown, false) == Some(a)
    requires !AlwaysDisablable(a.addonType)
    requires StartsWith(a.path, env.host.systemAddonsPath)
    ensures DisableAddon(env, st, id, dbOk) == Outcome(false, st)
  {
  }

  /** An always-disablable addon not in use is disabled even in the system addons folder once the write succeeds. */
  lemma AlwaysDisablableUnderSystemPath(env: Env, st: State, id: string)
    requires id != "" && IsAddonInstalled(env, st, id)
    requires GetAddon(env, st, id, Unknown, false).value.id !in env.inUse
    requires AlwaysDisablable(GetAddon(env, st, id, Unknown, false).value.addonType)
    ensures DisableAddon(env, st, id, true) == Outcome(true, st.(disabled := st.disabled + {id}))
  {
  }

  /** Disabling twice is disabling once: the second call succeeds without a write or a change. */
  lemma DisableIdempotent(env: Env, st: State, id: string, dbOk1: bool, dbOk2: bool)
    requires DisableAddon(env, st, id, dbOk1).ok
    ensures DisableAddon(env, DisableAddon(env, st, id, dbOk1).state, id, dbOk2)
         == Outcome(true, DisableAddon(env, st, id, dbOk1).state)
  {
  }

  /** Enabling an addon that was just disabled restores the state exactly. */
  lemma DisableThenEnable(env: Env, st: State, id: string)
    requires id !in st.disabled
    requires DisableAddon(env, st, id, true).ok
    ensures EnableAddon(DisableAddon(env, st, id, true).state, id, true) == Outcome(true, st)
  {
    assert st.disabled + {id} - {id} == st.disabled;
  }

  /** `IsBlacklisted`. */
  predicate IsBlacklisted(st: State, id: string) {
    id in st.updateBlacklist
  }

  /**
   `AddToUpdateBlacklist`: an id already listed is a success with no write;
   otherwise the database write decides, and only the blacklist changes.
   */
  function AddToUpdateBlacklist(st: State, id: string, dbOk: bool): (r: Outcome)
    ensures r.state.disabled == st.disabled
    ensures IsBlacklisted(st, id) ==> r == Outcome(true, st)
    ensures r.ok <==> IsBlacklisted(st, id) || dbOk
    ensures r.ok ==> r.state.updateBlacklist == st.updateBlacklist + {id}
    ensures !r.ok ==> r.state == st
  {
    if IsBlacklisted(st, id) then Outcome(true, st)
    else if !dbOk then Outcome(false, st)
    else Outcome(true, st.(updateBlacklist := st.updateBlacklist + {id}))
  }

  /**
   `RemoveFromUpdateBlacklist`: an id not listed is a success with no write;
   otherwise the database write decides, and only the blacklist changes.
   */
  function RemoveFromUpdateBlacklist(st: State, id: string, dbOk: bool): (r: Outcome)
    ensures r.state.disabled == st.disabled
    ensures !IsBlacklisted(st, id) ==> r == Outcome(true, st)
    ensures r.ok <==> !IsBlacklisted(st, id) || dbOk
    ensures r.ok ==> r.state.updateBlacklist == st.updateBlacklist - {id}
    ensures !r.ok ==> r.state == st
  {
    if !IsBlacklisted(st, id) then Outcome(true, st)
    else if !dbOk then Outcome(false, st)
    else Outcome(true, st.(updateBlacklist := st.updateBlacklist - {id}))
  }

  /** Blacklisting and then unblacklisting an id that was not listed restores the state exactly. */
  lemma BlacklistRoundTrip(st: State, id: string)
    requires !IsBlacklisted(st, id)
    ensures RemoveFromUpdateBlacklist(AddToUpdateBlacklist(st, id, true).state, id, true) == Outcome(true, st)
  {
    assert st.updateBlacklist + {id} - {id} == st.updateBlacklist;
  }

  /** `OnPostUnInstall`: the id leaves both sets and every other id keeps its membership. */
  function OnPostUnInstall(st: State, id: string): (r: State)
    ensures id !in r.disabled && id !in r.updateBlacklist
    ensures forall x :: x != id ==> (x in r.disabled <==> x in st.disabled)
    ensures forall x :: x != id ==> (x in r.updateBlacklist <==> x in st.updateBlacklist)
  {
    State(st.disabled - {id}, st.updateBlacklist - {id})
  }

  /** After an uninstall there is nothing left to enable or to unblacklist for that id. */
  lemma UninstallLeavesNothingToUndo(st: State, id: string, dbOk: bool)
    ensures EnableAddon(OnPostUnInstall(st, id), id, dbOk) == Outcome(true, OnPostUnInstall(st, id))
    ensures RemoveFromUpdateBlacklist(OnPostUnInstall(st, id), id, dbOk) == Outcome(true, OnPostUnInstall(st, id))
  {
  }

  /** `CanAddonBeInstalled`: not for a null addon, one already installed, or a broken one. */
  function CanAddonBeInstalled(env: Env, st: State, addon: Option<AddonInfo>): (r: bool)
    ensures r <==> addon.Some? && !IsAddonInstalled(env, st, addon.value.id) && addon.value.broken == ""
  {
    if addon.None? then false
    else if IsAddonInstalled(env, st, addon.value.id) then false
    else addon.value.broken == ""
  }

  /** True if `a` answers a query for kind `t`; `Unknown` matches every addon. */
  predicate MatchesType(a: AddonInfo, t: AddonType) {
    t == Unknown || a.addonType == t || IsType(a, t)
  }

  /**
   `GetInstallableAddons(addons, type)`: false when the repository content
   cannot be read; otherwise the repository entries of the requested kind that
   can be installed.
   */
  method GetInstallableAddons(env: Env, st: State, t: AddonType, repo: Option<seq<AddonInfo>>)
    returns (ok: bool, addons: seq<AddonInfo>)
    ensures ok <==> repo.Some?
    ensures !ok ==> addons == []
    ensures ok ==> |addons| <= |repo.value|
    ensures ok ==> forall a :: a in addons <==>
      a in repo.value && MatchesType(a, t) && !IsAddonInstalled(env, st, a.id) && a.broken == ""
  {
    if repo.None? {
      return false, [];
    }
    var content := repo.value;
    addons := [];
    var i := 0;
    while i < |content|
      invariant 0 <= i <= |content|
      invariant |addons| <= i
      invariant forall a :: a in addons <==>
        a in content[..i] && MatchesType(a, t) && CanAddonBeInstalled(env, st, Some(a))
    {
      var a := content[i];
      if MatchesType(a, t) && CanAddonBeInstalled(env, st, Some(a)) {
        addons := addons + [a];
      }
      assert content[..i + 1] == content[..i] + [a];
      i := i + 1;
    }
    assert content[..i] == content;
    ok := true;
  }

  /**
   One database entry of `GetAddonsInternal`: skipped when C-Pluff does not
   know it, when only enabled addons are wanted and it is disabled, or when it
   has no extension point for the kind (as for pure library addons);
   otherwise built by `Factory` from the database's builder.
   */
  function Resolve(env: Env, st: State, b: AddonInfo, t: AddonType, enabledOnly: bool): Option<AddonInfo> {
    if b.id !in env.plugins then None
    else
      var p := env.plugins[b.id];
      // a descriptor without identifier is refused by `Factory` in any case
      if enabledOnly && p.identifier.Some? && p.identifier.value in st.disabled then None
      else if GetFirstExtPoint(p, t, env.host.translate).None? then None
      else Factory(Some(p), t, env.host, b)
  }

  /** The addons the entries `builders` resolve to. */
  function ResolveAll(env: Env, st: State, builders: seq<AddonInfo>, t: AddonType, enabledOnly: bool): (r: seq<AddonInfo>)
    ensures |r| <= |builders|
    ensures forall a :: a in r <==>
      exists i :: 0 <= i < |builders| && Resolve(env, st, builders[i], t, enabledOnly) == Some(a)
    decreases |builders|
  {
    if |builders| == 0 then []
    else
      var rest := ResolveAll(env, st, builders[1..], t, enabledOnly);
      assert forall i :: 1 <= i < |builders| ==> builders[i] == builders[1..][i - 1];
      match Resolve(env, st, builders[0], t, enabledOnly)
      case None => rest
      case Some(a) => [a] + rest
  }

  /** `GetAddonsInternal(type, addons, enabledOnly)`: the installed addons of a kind. */
  function GetAddonsInternal(env: Env, st: State, t: AddonType, enabledOnly: bool): seq<AddonInfo> {
    ResolveAll(env, st, env.installed, t, enabledOnly)
  }

  /** `GetAddons(addons)`: every installed, enabled addon. */
  function GetAddons(env: Env, st: State): seq<AddonInfo> {
    GetAddonsInternal(env, st, Unknown, true)
  }

  /** `HasAddons(type)`: some installed, enabled addon of the kind. */
  predicate HasAddons(env: Env, st: State, t: AddonType) {
    |GetAddonsInternal(env, st, t, true)| > 0
  }

  /** `HasInstalledAddons(type)`: some installed addon of the kind, enabled or not. */
  predicate HasInstalledAddons(env: Env, st: State, t: AddonType) {
    |GetAddonsInternal(env, st, t, false)| > 0
  }

  /**
   An enabled addon is an installed one; an installed kind without enabled
   addons has all of them disabled.
   */
  lemma HasAddonsExact(env: Env, st: State, t: AddonType)
    ensures HasAddons(env, st, t) ==> HasInstalledAddons(env, st, t)
    ensures HasInstalledAddons(env, st, t) && !HasAddons(env, st, t) ==>
      forall a :: a in GetAddonsInternal(env, st, t, false) ==> a.id in st.disabled
  {
    EnabledDisabledPartition(env, st, t);
    var enabled := GetAddonsInternal(env, st, t, true);
    if |enabled| > 0 {
      assert enabled[0] in enabled;
    }
  }

  /**
   Every addon a query returns has a non-metadata extension point, has the
   requested kind unless the wildcard was asked for, and is enabled when only
   enabled addons were asked for.
   */
  lemma GetAddonsInternalSound(env: Env, st: State, t: AddonType, enabledOnly: bool)
    ensures forall a :: a in GetAddonsInternal(env, st, t, enabledOnly) ==>
      && a.extPoint.Some? && !IsMetadataPoint(a.extPoint.value.pointId)
      && (t != Unknown ==> a.addonType == t)
      && (enabledOnly ==> a.id !in st.disabled)
  {
    forall a | a in GetAddonsInternal(env, st, t, enabledOnly)
      ensures a.extPoint.Some? && !IsMetadataPoint(a.extPoint.value.pointId)
      ensures t != Unknown ==> a.addonType == t
      ensures enabledOnly ==> a.id !in st.disabled
    {
      var i :| 0 <= i < |env.installed| && Resolve(env, st, env.installed[i], t, enabledOnly) == Some(a);
      var p := env.plugins[env.installed[i].id];
      assert Factory(Some(p), t, env.host, env.installed[i]) == Some(a);
    }
  }

  /** The addons of `xs` whose id is disabled. */
  function KeepDisabled(xs: seq<AddonInfo>, disabled: set<string>): (r: seq<AddonInfo>)
    ensures |r| <= |xs|
    ensures forall a :: a in r <==> a in xs && a.id in disabled
    decreases |xs|
  {
    if |xs| == 0 then []
    else
      var rest := KeepDisabled(xs[1..], disabled);
      assert forall a :: a in xs <==> a == xs[0] || a in xs[1..];
      if xs[0].id in disabled then [xs[0]] + rest else rest
  }

  /**
   `GetDisabledAddons(addons, type)`: false when nothing of the kind is
   installed; otherwise the installed addons of the kind that are disabled.
   */
  function GetDisabledAddons(env: Env, st: State, t: AddonType): (r: (bool, seq<AddonInfo>))
    ensures r.0 <==> |GetAddonsInternal(env, st, t, false)| > 0
    ensures forall a :: a in r.1 <==> a in GetAddonsInternal(env, st, t, false) && a.id in st.disabled
  {
    var all := GetAddonsInternal(env, st, t, false);
    if |all| > 0 then (true, KeepDisabled(all, st.disabled)) else (false, [])
  }

  /** Asking for enabled addons only drops exactly the entries that resolve to a disabled id. */
  lemma ResolveEnabledOnly(env: Env, st: State, b: AddonInfo, t: AddonType)
    ensures Resolve(env, st, b, t, true) ==
      match Resolve(env, st, b, t, false)
      case None => None
      case Some(a) => if a.id in st.disabled then None else Some(a)
  {
    if b.id in env.plugins {
      var p := env.plugins[b.id];
      if Factory(Some(p), t, env.host, b).Some? {
        assert Factory(Some(p), t, env.host, b).value.id == p.identifier.value;
      }
    }
  }

  /** The enabled query and the disabled query split the installed addons of a kind between them. */
  lemma EnabledDisabledPartition(env: Env, st: State, t: AddonType)
    ensures forall a :: a in GetAddonsInternal(env, st, t, true) <==>
      a in GetAddonsInternal(env, st, t, false) && a.id !in st.disabled
    ensures forall a :: a in GetAddonsInternal(env, st, t, false) ==>
      (a in GetAddonsInternal(env, st, t, true) || a in GetDisabledAddons(env, st, t).1)
  {
    var bs := env.installed;
    forall a | a in GetAddonsInternal(env, st, t, true)
      ensures a in GetAddonsInternal(env, st, t, false) && a.id !in st.disabled
    {
      var i :| 0 <= i < |bs| && Resolve(env, st, bs[i], t, true) == Some(a);
      ResolveEnabledOnly(env, st, bs[i], t);
    }
    forall a | a in GetAddonsInternal(env, st, t, false) && a.id !in st.disabled
      ensures a in GetAddonsInternal(env, st, t, true)
    {
      var i :| 0 <= i < |bs| && Resolve(env, st, bs[i], t, false) == Some(a);
      ResolveEnabledOnly(env, st, bs[i], t);
    }
  }
}

=== FILE: services.dfy ===
/**
 `StartServices` and `StopServices`: the enabled service addons, filtered by
 the phase each declares. Reading a service's start option and starting it
 are parameters; the addon's own start and stop side effects are not modelled.
 */
module Services {
  import opened AddonTypes
  import opened Registry

  /** `CService::START_OPTION`. */
  datatype StartOption = Startup | Login

  /** Whether a service with option `opt` is started in the phase `beforeLogin` names. */
  predicate StartsInPhase(opt: StartOption, beforeLogin: bool) {
    (beforeLogin && opt == Startup) || (!beforeLogin && opt == Login)
  }

  /** Whether a service with option `opt` is stopped by `StopServices(onlyLogin)`. */
  predicate StopsInPhase(opt: StartOption, onlyLogin: bool) {
    (onlyLogin && opt == Login) || !onlyLogin
  }

  /**
   `StartServices(beforelogin)`: false when no service is installed and
   enabled. Otherwise every service of the phase is started — a failure does
   not stop the others — and the result is true iff all of them started.
   `started` lists the services whose start was attempted.
   */
  method StartServices(env: Env, st: State, beforeLogin: bool,
                       startOption: AddonInfo -> StartOption, start: AddonInfo -> bool)
    returns (ok: bool, started: seq<AddonInfo>)
    ensures |GetAddonsInternal(env, st, Service, true)| == 0 ==> !ok && started == []
    ensures |started| <= |GetAddonsInternal(env, st, Service, true)|
    ensures forall s :: s in started <==>
      s in GetAddonsInternal(env, st, Service, true) && StartsInPhase(startOption(s), beforeLogin)
    ensures ok <==>
      |GetAddonsInternal(env, st, Service, true)| > 0 && forall s :: s in started ==> start(s)
  {
    var services := GetAddonsInternal(env, st, Service, true);
    if |services| == 0 {
      return false, [];
    }
    ok := true;
    started := [];
    var i := 0;
    while i < |services|
      invariant 0 <= i <= |services|
      invariant |started| <= i
      invariant forall s :: s in started <==> s in services[..i] && StartsInPhase(startOption(s), beforeLogin)
      invariant ok <==> forall s :: s in started ==> start(s)
    {
      var s := services[i];
      if StartsInPhase(startOption(s), beforeLogin) {
        var result := start(s);
        started := started + [s];
        ok := ok && result;
      }
      assert services[..i + 1] == services[..i] + [s];
      i := i + 1;
    }
    assert services[..i] == services;
  }

  /**
   `StopServices(onlylogin)`: every enabled service when `onlyLogin` is false,
   only the login-phase ones otherwise.
   */
  method StopServices(env: Env, st: State, onlyLogin: bool, startOption: AddonInfo -> StartOption)
    returns (stopped: seq<AddonInfo>)
    ensures |stopped| <= |GetAddonsInternal(env, st, Service, true)|
    ensures forall s :: s in stopped <==>
      s in GetAddonsInternal(env, st, Service, true) && StopsInPhase(startOption(s), onlyLogin)
  {
    var services := GetAddonsInternal(env, st, Service, true);
    stopped := [];
    var i := 0;
    while i < |services|
      invariant 0 <= i <= |services|
      invariant |stopped| <= i
      invariant forall s :: s in stopped <==> s in services[..i] && StopsInPhase(startOption(s), onlyLogin)
    {
      var s := services[i];
      if StopsInPhase(startOption(s), onlyLogin) {
        stopped := stopped + [s];
      }
      assert services[..i + 1] == services[..i] + [s];
      i := i + 1;
    }
    assert services[..i] == services;
  }

  /** The services stopped on logout are exactly those started at login. */
  lemma LogoutStopsLoginServices(opt: StartOption)
    ensures StopsInPhase(opt, true) <==> StartsInPhase(opt, false)
    ensures StopsInPhase(opt, false)
  {
  }
}

=== FILE: string_utils.dfy ===
/**
 The `StringUtils` helpers the addon manager relies on: a prefix test and
 splitting a value on a delimiter.
 */
module StringUtils {

  /** `StringUtils::StartsWith`: `prefix` is an initial segment of `s`. */
  predicate StartsWith(s: string, prefix: string) {
    |prefix| <= |s| && s[..|prefix|] == prefix
  }

  /** `s` with every occurrence of `d` removed. */
  function Without(s: string, d: char): (r: string)
    ensures d !in r
    ensures |r| <= |s|
    ensures forall c :: c != d ==> multiset(r)[c] == multiset(s)[c]
  {
    if |s| == 0 then ""
    else
      assert s == [s[0]] + s[1..];
      if s[0] == d then Without(s[1..], d)
      else [s[0]] + Without(s[1..], d)
  }

  /** The concatenation of all strings of `ts`. */
  function Concat(ts: seq<string>): string {
    if |ts| == 0 then "" else ts[0] + Concat(ts[1..])
  }

  /** The strings of `ts` with one `d` between neighbours. */
  function Join(ts: seq<string>, d: char): string {
    if |ts| == 0 then ""
    else if |ts| == 1 then ts[0]
    else ts[0] + [d] + Join(ts[1..], d)
  }

  /** Every token is non-empty and free of the delimiter. */
  predicate ValidTokens(ts: seq<string>, d: char) {
    forall i :: 0 <= i < |ts| ==> ts[i] != "" && d !in ts[i]
  }

  /**
   The scanner behind `StringUtils::Tokenize` with a single delimiter: `cur`
   is the token being read; runs of delimiters, and delimiters at either end,
   produce no empty tokens.
   */
  function TokenizeFrom(s: string, d: char, cur: string): (r: seq<string>)
    requires d !in cur
    ensures ValidTokens(r, d)
    ensures Concat(r) == cur + Without(s, d)
    decreases |s|
  {
    if |s| == 0 then
      if cur == "" then [] else [cur]
    else if s[0] == d then
      var rest := TokenizeFrom(s[1..], d, "");
      if cur == "" then rest
      else
        assert ([cur] + rest)[1..] == rest;
        [cur] + rest
    else
      TokenizeFrom(s[1..], d, cur + [s[0]])
  }

  /** The longest delimiter-free prefix of `s`. */
  function LeadingWord(s: string, d: char): (r: string)
    ensures d !in r
    ensures |r| <= |s| && r == s[..|r|]
    ensures |r| == |s| || s[|r|] == d
    decreases |s|
  {
    if |s| == 0 || s[0] == d then ""
    else [s[0]] + LeadingWord(s[1..], d)
  }

  /**
   Reference definition of what tokenising keeps: the words of `s` in order,
   each followed by a single `d` when another word comes after it. Runs of
   delimiters collapse to one, and delimiters at either end disappear.
   */
  function Squeeze(s: string, d: char): string
    decreases |s|
  {
    if |s| == 0 then ""
    else if s[0] == d then Squeeze(s[1..], d)
    else
      var w := LeadingWord(s, d);
      var rest := Squeeze(s[|w|..], d);
      if rest == "" then w else w + [d] + rest
  }

  /** A non-empty list of valid tokens joins to a non-empty string. */
  lemma JoinNonEmpty(ts: seq<string>, d: char)
    requires ValidTokens(ts, d) && |ts| > 0
    ensures Join(ts, d) != ""
  {
    assert ts[0] != "";
    assert |ts| > 1 ==> Join(ts, d) == ts[0] + ([d] + Join(ts[1..], d));
  }

  /** The tokens, joined back with single delimiters, are the squeezed input. */
  lemma {:induction false} TokenizeSqueeze(s: string, d: char)
    ensures Join(TokenizeFrom(s, d, ""), d) == Squeeze(s, d)
    decreases |s|
  {
    if |s| == 0 {
    } else if s[0] == d {
      TokenizeSqueeze(s[1..], d);
    } else {
      var w := LeadingWord(s, d);
      var s' := s[|w|..];
      assert w != "";
      assert s == w + s';
      TokenizeWord(w, s', d, "");
      assert "" + w == w;
      if |s'| == 0 {
        assert TokenizeFrom(s', d, w) == [w];
      } else {
        assert s'[0] == d;
        var r := TokenizeFrom(s'[1..], d, "");
        assert TokenizeFrom(s', d, w) == [w] + r;
        TokenizeSqueeze(s'[1..], d);
        assert Squeeze(s', d) == Squeeze(s'[1..], d);
        if |r| > 0 {
          JoinNonEmpty(r, d);
          assert ([w] + r)[1..] == r;
        }
      }
    }
  }

  /** `StringUtils::Tokenize(s, result, d)`: the maximal delimiter-free pieces of `s`. */
  function Tokenize(s: string, d: char): (r: seq<string>)
    ensures ValidTokens(r, d)
    ensures Concat(r) == Without(s, d)
    ensures Join(r, d) == Squeeze(s, d)
  {
    TokenizeSqueeze(s, d);
    TokenizeFrom(s, d, "")
  }

  /** Reading a delimiter-free word just extends the current token. */
  lemma {:induction false} TokenizeWord(w: string, s: string, d: char, cur: string)
    requires d !in w && d !in cur
    ensures TokenizeFrom(w + s, d, cur) == TokenizeFrom(s, d, cur + w)
    decreases |w|
  {
    if |w| > 0 {
      assert (w + s)[0] == w[0];
      assert (w + s)[1..] == w[1..] + s;
      TokenizeWord(w[1..], s, d, cur + [w[0]]);
      assert cur + [w[0]] + w[1..] == cur + w;
    } else {
      assert w + s == s;
      assert cur + w == cur;
    }
  }

  /** Splitting a joined list of valid tokens gives the list back. */
  lemma {:induction false} TokenizeJoin(ts: seq<string>, d: char)
    requires ValidTokens(ts, d)
    ensures Tokenize(Join(ts, d), d) == ts
    decreases |ts|
  {
    if |ts| == 1 {
      assert ts[0] != "" && d !in ts[0];
      TokenizeWord(ts[0], "", d, "");
      assert ts[0] + "" == ts[0] && "" + ts[0] == ts[0];
      assert TokenizeFrom("", d, ts[0]) == [ts[0]];
    } else if |ts| > 1 {
      var tail := [d] + Join(ts[1..], d);
      assert Join(ts, d) == ts[0] + tail;
      assert ts[0] != "" && d !in ts[0];
      TokenizeWord(ts[0], tail, d, "");
      assert "" + ts[0] == ts[0];
      assert tail[0] == d && tail[1..] == Join(ts[1..], d);
      assert TokenizeFrom(tail, d, ts[0]) == [ts[0]] + TokenizeFrom(Join(ts[1..], d), d, "");
      TokenizeJoin(ts[1..], d);
      assert ts == [ts[0]] + ts[1..];
    }
  }

  /** The tokens of `s` are the only valid tokens that join to its squeezed form. */
  lemma TokenizeUnique(s: string, d: char, ts: seq<string>)
    requires ValidTokens(ts, d) && Join(ts, d) == Squeeze(s, d)
    ensures ts == Tokenize(s, d)
  {
    TokenizeJoin(ts, d);
    TokenizeJoin(Tokenize(s, d), d);
  }

  /** Runs of delimiters, leading and trailing ones included, give the same tokens as one delimiter. */
  lemma SqueezeExample()
    ensures Tokenize(" ab  c ", ' ') == ["ab", "c"]
  {
    assert " ab  c "[1..] == "ab  c ";
    assert "ab  c "[1..] == "b  c ";
    assert "b  c "[1..] == "  c ";
    assert LeadingWord("  c ", ' ') == "";
    assert LeadingWord("b  c ", ' ') == "b";
    assert LeadingWord("ab  c ", ' ') == "ab";
    assert "ab  c "[2..] == "  c ";
    assert "  c "[1..] == " c ";
    assert " c "[1..] == "c ";
    assert "c "[1..] == " ";
    assert " "[1..] == "";
    assert LeadingWord(" ", ' ') == "";
    assert LeadingWord("c ", ' ') == "c";
    assert "c "[|"c"|..] == " ";
    assert Squeeze(" ", ' ') == "";
    assert Squeeze("c ", ' ') == "c";
    assert Squeeze("  c ", ' ') == "c";
    assert Squeeze("ab  c ", ' ') == "ab c";
    assert Squeeze(" ab  c ", ' ') == "ab c" == Join(["ab", "c"], ' ');
    TokenizeUnique(" ab  c ", ' ', ["ab", "c"]);
  }

  /** A non-empty delimiter-free value is a single token. */
  lemma SingleToken(s: string, d: char)
    requires s != "" && d !in s
    ensures Tokenize(s, d) == [s]
  {
    TokenizeJoin([s], d);
  }
}

=== FILE: translator.dfy ===
/**
 Turning a C-Pluff descriptor into an addon record: choosing the extension
 point that gives the addon its kind (`GetFirstExtPoint`), rejecting
 descriptors without an id or for another platform (`Factory`,
 `PlatformSupportsAddon`) and copying the descriptor's metadata into the
 builder (`FillCpluffMetadata`).
 */
module Translator {
  import opened Wrappers
  import opened Collections
  import opened StringUtils
  import opened UriUtils
  import opened Cpluff
  import opened AddonTypes
  import opened Platform
  import opened LocaleText

  const KodiMetadataPoint: string := "kodi.addon.metadata"
  const XbmcMetadataPoint: string := "xbmc.addon.metadata"

  /** The metadata extension points, which never give an addon its kind. */
  predicate IsMetadataPoint(id: string) {
    id == KodiMetadataPoint || id == XbmcMetadataPoint
  }

  /** The scan of `GetFirstExtPoint` from position `from` on. */
  function FirstExtPointFrom(exts: seq<Extension>, t: AddonType, translate: string -> AddonType, from: nat): (r: Option<nat>)
    requires from <= |exts|
    ensures r.Some? ==>
      && from <= r.value < |exts|
      && !IsMetadataPoint(exts[r.value].pointId)
      && (t == Unknown || translate(exts[r.value].pointId) == t)
    ensures r.Some? ==>
      forall j :: from <= j < r.value ==>
        IsMetadataPoint(exts[j].pointId) || (t != Unknown && translate(exts[j].pointId) != t)
    ensures r.None? <==>
      forall j :: from <= j < |exts| ==>
        IsMetadataPoint(exts[j].pointId) || (t != Unknown && translate(exts[j].pointId) != t)
    decreases |exts| - from
  {
    if from == |exts| then None
    else if IsMetadataPoint(exts[from].pointId) then FirstExtPointFrom(exts, t, translate, from + 1)
    else if t == Unknown then Some(from)
    else if translate(exts[from].pointId) == t then Some(from)
    else FirstExtPointFrom(exts, t, translate, from + 1)
  }

  /**
   `GetFirstExtPoint(addon, type)`: the position of the first extension that
   is not a metadata extension and, unless `t` is `Unknown`, whose point
   translates to `t`; None when there is none.
   */
  function GetFirstExtPoint(plugin: Plugin, t: AddonType, translate: string -> AddonType): (r: Option<nat>)
    ensures r.Some? ==>
      && r.value < |plugin.extensions|
      && !IsMetadataPoint(plugin.extensions[r.value].pointId)
      && (t == Unknown || translate(plugin.extensions[r.value].pointId) == t)
    ensures r.Some? ==>
      forall j :: 0 <= j < r.value ==>
        IsMetadataPoint(plugin.extensions[j].pointId) || (t != Unknown && translate(plugin.extensions[j].pointId) != t)
    ensures r.None? <==>
      forall j :: 0 <= j < |plugin.extensions| ==>
        IsMetadataPoint(plugin.extensions[j].pointId) || (t != Unknown && translate(plugin.extensions[j].pointId) != t)
  {
    FirstExtPointFrom(plugin.extensions, t, translate, 0)
  }

  /** With the `Unknown` wildcard the first non-metadata extension is chosen, whatever its kind. */
  lemma UnknownTakesFirstNonMetadata(plugin: Plugin, translate: string -> AddonType, i: nat)
    requires i < |plugin.extensions| && !IsMetadataPoint(plugin.extensions[i].pointId)
    requires forall j :: 0 <= j < i ==> IsMetadataPoint(plugin.extensions[j].pointId)
    ensures GetFirstExtPoint(plugin, Unknown, translate) == Some(i)
  {
  }

  /**
   The metadata extension: the first "xbmc.addon.metadata" extension,
   otherwise the first "kodi.addon.metadata" one.
   */
  function MetadataExtension(plugin: Plugin): (r: Option<Extension>)
    ensures r.Some? ==> r.value in plugin.extensions && IsMetadataPoint(r.value.pointId)
    ensures r.None? <==> forall i :: 0 <= i < |plugin.extensions| ==> !IsMetadataPoint(plugin.extensions[i].pointId)
    ensures (exists i :: 0 <= i < |plugin.extensions| && plugin.extensions[i].pointId == XbmcMetadataPoint) ==>
      r.Some? && r.value.pointId == XbmcMetadataPoint
    ensures r.Some? ==>
      exists i :: 0 <= i < |plugin.extensions| && plugin.extensions[i] == r.value
        && forall j :: 0 <= j < i ==> plugin.extensions[j].pointId != r.value.pointId
  {
    match GetExtension(plugin.extensions, XbmcMetadataPoint)
    case Some(e) => Some(e)
    case None => GetExtension(plugin.extensions, KodiMetadataPoint)
  }

  /** The platform tags a descriptor declares; a missing, empty or blank list gives []. */
  function DeclaredPlatforms(plugin: Plugin): seq<string> {
    match MetadataExtension(plugin)
    case None => []
    case Some(m) => GetExtList(m.config, "platform").1
  }

  /**
   `PlatformSupportsAddon`: an addon that declares no platform runs anywhere;
   otherwise one of its tags must be supported by the host, and "all" always is.
   */
  function PlatformSupportsAddon(plugin: Plugin, host: Host): (r: bool)
    ensures r <==>
      DeclaredPlatforms(plugin) == []
      || exists i :: 0 <= i < |DeclaredPlatforms(plugin)| && DeclaredPlatforms(plugin)[i] in SupportedPlatforms(host)
    ensures "all" in DeclaredPlatforms(plugin) ==> r
  {
    match MetadataExtension(plugin)
    case None => true
    case Some(metadata) =>
      var (found, platforms) := GetExtList(metadata.config, "platform");
      if !found then true
      else if |platforms| == 0 then true
      else exists i :: 0 <= i < |platforms| && platforms[i] in SupportedPlatforms(host)
  }

  /** A descriptor declaring only "android" is refused on a host whose only own tag is "linux". */
  lemma AndroidOnlyRefusedOnLinux(plugin: Plugin, host: Host)
    requires host.platforms == {"linux"}
    requires forall i :: 0 <= i < |plugin.extensions| ==> plugin.extensions[i].pointId != XbmcMetadataPoint
    requires |plugin.extensions| > 0 && plugin.extensions[0] == Extension(KodiMetadataPoint, Config(map["platform" := "android"], []))
    ensures !PlatformSupportsAddon(plugin, host)
  {
    SingleToken("android", ' ');
    assert GetExtension(plugin.extensions, KodiMetadataPoint) == Some(plugin.extensions[0]);
    assert DeclaredPlatforms(plugin) == ["android"];
  }

  /** `GetPlatformLibraryName`: the first non-empty value among the host's library keys. */
  function PlatformLibraryName(config: Config, keys: seq<string>): (r: string)
    ensures r == "" <==> forall i :: 0 <= i < |keys| ==> GetExtValue(config, keys[i]) == ""
    ensures r != "" ==>
      exists i :: 0 <= i < |keys| && GetExtValue(config, keys[i]) == r
        && forall j :: 0 <= j < i ==> GetExtValue(config, keys[j]) == ""
    decreases |keys|
  {
    if |keys| == 0 then ""
    else if GetExtValue(config, keys[0]) != "" then GetExtValue(config, keys[0])
    else
      assert forall i :: 1 <= i < |keys| ==> keys[i] == keys[1..][i - 1];
      PlatformLibraryName(config, keys[1..])
  }

  /** The library name: the generic "@library" attribute first, then the platform-specific ones. */
  function LibraryName(config: Config, host: Host): (r: string)
    ensures GetExtValue(config, "@library") != "" ==> r == GetExtValue(config, "@library")
    ensures GetExtValue(config, "@library") == "" ==> r == PlatformLibraryName(config, host.libraryKeys)
    ensures r == "" <==>
      GetExtValue(config, "@library") == "" && forall i :: 0 <= i < |host.libraryKeys| ==> GetExtValue(config, host.libraryKeys[i]) == ""
  {
    var lib := GetExtValue(config, "@library");
    if lib != "" then lib else PlatformLibraryName(config, host.libraryKeys)
  }

  /** The dependency an import adds; an import without a version requires "0.0.0". */
  function DependencyEntry(imp: Import): Option<(string, Dependency)> {
    if imp.pluginId.None? then None
    else
      var version := if imp.version.Some? then Version(imp.version.value) else ZeroVersion;
      Some((imp.pluginId.value, Dependency(version, imp.optional)))
  }

  /** The dependency table, built with `emplace`, so a repeated id keeps its first import. */
  function Dependencies(imports: seq<Import>): map<string, Dependency> {
    EmplaceAll(map[], seq(|imports|, i requires 0 <= i < |imports| => DependencyEntry(imports[i])))
  }

  /**
   Every import with an id appears in the table, nothing else does, and a
   repeated id keeps the version and optional flag of its FIRST import, with
   "0.0.0" for a missing version.
   */
  lemma DependenciesFirstWins(imports: seq<Import>)
    ensures forall id :: id in Dependencies(imports) <==>
      exists i :: 0 <= i < |imports| && imports[i].pluginId == Some(id)
    ensures forall i ::
              (0 <= i < |imports| && imports[i].pluginId.Some?
               && (forall j :: 0 <= j < i ==> imports[j].pluginId != imports[i].pluginId))
              ==> (Dependencies(imports)[imports[i].pluginId.value] ==
                   Dependency(if imports[i].version.Some? then Version(imports[i].version.value) else ZeroVersion,
                              imports[i].optional))
  {
    var es := seq(|imports|, i requires 0 <= i < |imports| => DependencyEntry(imports[i]));
    EmplaceAllFirstWins(map[], es);
    assert forall i, id :: 0 <= i < |imports| ==> (IsEntryFor(es[i], id) <==> imports[i].pluginId == Some(id));
  }

  /** True if `path` is set and not empty, so the asset paths are derived from it. */
  predicate HasPath(plugin: Plugin) {
    plugin.pluginPath.Some? && plugin.pluginPath.value != ""
  }

  /** True if the metadata sets flag `key` (such as "noicon") to "true". */
  predicate MetadataFlag(plugin: Plugin, key: string) {
    MetadataExtension(plugin).Some? && GetExtValue(MetadataExtension(plugin).value.config, key) == "true"
  }

  /** An asset path: "" when suppressed by `flag`, derived from the plug-in path when there is one, else kept. */
  ghost predicate AssetPath(plugin: Plugin, flag: string, file: string, before: string, after: string) {
    if MetadataFlag(plugin, flag) then after == ""
    else if HasPath(plugin) then after == AddFileToFolder(plugin.pluginPath.value, file)
    else after == before
  }

  /** The builder after the metadata extension's settings are applied. */
  function ApplyMetadata(b: AddonInfo, config: Config, locale: Locale): (r: AddonInfo)
    ensures r.id == b.id && r.addonType == b.addonType && r.extPoint == b.extPoint && r.libName == b.libName
    ensures r.extraTypes == b.extraTypes
    ensures r.version == b.version && r.minVersion == b.minVersion && r.name == b.name && r.author == b.author
    ensures r.path == b.path && r.dependencies == b.dependencies
  {
    var language := GetExtValue(config, "language");
    b.(summary := GetTranslatedString(config, "summary", locale),
       description := GetTranslatedString(config, "description", locale),
       disclaimer := GetTranslatedString(config, "disclaimer", locale),
       license := GetExtValue(config, "license"),
       extraInfo := if language != "" then map["language" := language] else b.extraInfo,
       broken := GetExtValue(config, "broken"),
       fanart := if GetExtValue(config, "nofanart") == "true" then "" else b.fanart,
       icon := if GetExtValue(config, "noicon") == "true" then "" else b.icon,
       changelog := if GetExtValue(config, "nochangelog") == "true" then "" else b.changelog)
  }

  /**
   `FillCpluffMetadata`: copies the descriptor's id, versions, name, author,
   path, asset paths, dependencies and metadata into the builder. Kind,
   extension point and library name are never touched; the lemmas below state
   the other fields.
   */
  function FillCpluffMetadata(plugin: Plugin, b: AddonInfo, locale: Locale): (r: AddonInfo)
    requires plugin.identifier.Some?
    ensures r.id == plugin.identifier.value
    ensures r.addonType == b.addonType && r.extPoint == b.extPoint && r.libName == b.libName
    ensures r.extraTypes == b.extraTypes
  {
    var hasPath := HasPath(plugin);
    var path := plugin.pluginPath.GetOr("");
    var filled :=
      b.(id := plugin.identifier.value,
         version := if plugin.version.Some? then Version(plugin.version.value) else b.version,
         minVersion := if plugin.abiCompatibility.Some? then Version(plugin.abiCompatibility.value) else b.minVersion,
         name := plugin.name.GetOr(b.name),
         author := plugin.provider.GetOr(b.author),
         path := if hasPath then path else b.path,
         icon := if hasPath then AddFileToFolder(path, "icon.png") else b.icon,
         fanart := if hasPath then AddFileToFolder(path, "fanart.jpg") else b.fanart,
         changelog := if hasPath then AddFileToFolder(path, "changelog.txt") else b.changelog,
         dependencies := Dependencies(plugin.imports));
    match MetadataExtension(plugin)
    case None => filled
    case Some(metadata) => ApplyMetadata(filled, metadata.config, locale)
  }

  /** Versions, name and author come from the descriptor when it has them, else stay as the builder had them. */
  lemma FillKeepsOrSetsIdentity(plugin: Plugin, b: AddonInfo, locale: Locale)
    requires plugin.identifier.Some?
    ensures var r := FillCpluffMetadata(plugin, b, locale);
      && r.version == (if plugin.version.Some? then Version(plugin.version.value) else b.version)
      && r.minVersion == (if plugin.abiCompatibility.Some? then Version(plugin.abiCompatibility.value) else b.minVersion)
      && r.name == plugin.name.GetOr(b.name)
      && r.author == plugin.provider.GetOr(b.author)
  {
  }

  /**
   The path is taken from a non-empty plug-in path, and the icon, fanart and
   changelog paths are derived from it; a "no*" flag of the metadata clears
   the matching asset path in every case.
   */
  lemma FillAssetPaths(plugin: Plugin, b: AddonInfo, locale: Locale)
    requires plugin.identifier.Some?
    ensures var r := FillCpluffMetadata(plugin, b, locale);
      && r.path == (if HasPath(plugin) then plugin.pluginPath.value else b.path)
      && AssetPath(plugin, "noicon", "icon.png", b.icon, r.icon)
      && AssetPath(plugin, "nofanart", "fanart.jpg", b.fanart, r.fanart)
      && AssetPath(plugin, "nochangelog", "changelog.txt", b.changelog, r.changelog)
  {
  }

  /**
   The filled-in dependencies are exactly the imports that name a plug-in;
   a repeated id keeps the version ("0.0.0" when missing) and optional flag of
   its first import, whatever dependencies the builder held before.
   */
  lemma FillDependencies(plugin: Plugin, b: AddonInfo, locale: Locale)
    requires plugin.identifier.Some?
    ensures var deps := FillCpluffMetadata(plugin, b, locale).dependencies;
      forall id :: id in deps <==> exists i :: 0 <= i < |plugin.imports| && plugin.imports[i].pluginId == Some(id)
    ensures var deps := FillCpluffMetadata(plugin, b, locale).dependencies;
      var imports := plugin.imports;
      forall i ::
        (0 <= i < |imports| && imports[i].pluginId.Some?
         && (forall j :: 0 <= j < i ==> imports[j].pluginId != imports[i].pluginId))
        ==> (deps[imports[i].pluginId.value] ==
             Dependency(if imports[i].version.Some? then Version(imports[i].version.value) else ZeroVersion,
                        imports[i].optional))
  {
    DependenciesFirstWins(plugin.imports);
  }

  /**
   Without a metadata extension the texts, license, broken reason and extra
   info stay as the builder had them. With one, summary, description and
   disclaimer are each the text of the first element filed under the best
   matching language (else "en_GB"), or "" when there is none; license and
   broken reason are the metadata's values ("" when absent); and a non-empty
   language value replaces the extra info by the single "language" entry.
   */
  lemma FillMetadataTexts(plugin: Plugin, b: AddonInfo, locale: Locale)
    requires plugin.identifier.Some?
    ensures var r := FillCpluffMetadata(plugin, b, locale);
      MetadataExtension(plugin).None? ==>
        && r.summary == b.summary && r.description == b.description && r.disclaimer == b.disclaimer
        && r.license == b.license && r.broken == b.broken && r.extraInfo == b.extraInfo
    ensures var r := FillCpluffMetadata(plugin, b, locale);
      MetadataExtension(plugin).Some? ==>
        var config := MetadataExtension(plugin).value.config;
        && IsChosenText(config.children, "summary", locale, r.summary)
        && IsChosenText(config.children, "description", locale, r.description)
        && IsChosenText(config.children, "disclaimer", locale, r.disclaimer)
        && r.license == (if "license" in config.values then config.values["license"] else "")
        && r.broken == (if "broken" in config.values then config.values["broken"] else "")
        && (if "language" in config.values && config.values["language"] != ""
            then r.extraInfo == map["language" := config.values["language"]]
            else r.extraInfo == b.extraInfo)
  {
    if MetadataExtension(plugin).Some? {
      var config := MetadataExtension(plugin).value.config;
      forall b': AddonInfo | b'.extraInfo == b.extraInfo
        ensures MetadataTexts(config, locale, b', ApplyMetadata(b', config, locale))
      {
        ApplyMetadataTexts(b', config, locale);
      }
    }
  }

  /** The texts, license, broken reason and extra info `after` takes from metadata `config`. */
  predicate MetadataTexts(config: Config, locale: Locale, before: AddonInfo, after: AddonInfo) {
    && IsChosenText(config.children, "summary", locale, after.summary)
    && IsChosenText(config.children, "description", locale, after.description)
    && IsChosenText(config.children, "disclaimer", locale, after.disclaimer)
    && after.license == (if "license" in config.values then config.values["license"] else "")
    && after.broken == (if "broken" in config.values then config.values["broken"] else "")
    && (if "language" in config.values && config.values["language"] != ""
        then after.extraInfo == map["language" := config.values["language"]]
        else after.extraInfo == before.extraInfo)
  }

  /** Applying metadata `config` sets the texts as `MetadataTexts` describes. */
  lemma ApplyMetadataTexts(b: AddonInfo, config: Config, locale: Locale)
    ensures MetadataTexts(config, locale, b, ApplyMetadata(b, config, locale))
  {
    TranslatedStringChoice(config, "summary", locale);
    TranslatedStringChoice(config, "description", locale);
    TranslatedStringChoice(config, "disclaimer", locale);
  }

  /** Filling a builder a second time from the same descriptor changes nothing. */
  lemma FillIdempotent(plugin: Plugin, b: AddonInfo, locale: Locale)
    requires plugin.identifier.Some?
    ensures FillCpluffMetadata(plugin, FillCpluffMetadata(plugin, b, locale), locale) == FillCpluffMetadata(plugin, b, locale)
  {
    var r := FillCpluffMetadata(plugin, b, locale);
    var r2 := FillCpluffMetadata(plugin, r, locale);
    FillKeepsOrSetsIdentity(plugin, b, locale);
    FillKeepsOrSetsIdentity(plugin, r, locale);
    FillAssetPaths(plugin, b, locale);
    FillAssetPaths(plugin, r, locale);
    FillDependencies(plugin, b, locale);
    FillDependencies(plugin, r, locale);
    FillMetadataTexts(plugin, b, locale);
    FillMetadataTexts(plugin, r, locale);
    assert r2.dependencies == r.dependencies;
    if MetadataExtension(plugin).Some? {
      var config := MetadataExtension(plugin).value.config;
      ChosenTextUnique(config.children, "summary", locale, r.summary, r2.summary);
      ChosenTextUnique(config.children, "description", locale, r.description, r2.description);
      ChosenTextUnique(config.children, "disclaimer", locale, r.disclaimer, r2.disclaimer);
    }
  }

  /** The builder once extension `e` is chosen: its kind, the extension and its library name. */
  function WithExtPoint(b: AddonInfo, e: Extension, host: Host): (r: AddonInfo)
    ensures r.addonType == host.translate(e.pointId) && r.extPoint == Some(e)
    ensures r.libName == LibraryName(e.config, host)
  {
    b.(addonType := host.translate(e.pointId), extPoint := Some(e), libName := LibraryName(e.config, host))
  }

  /**
   `Factory(plugin, type, builder)`: no addon for a null descriptor, a
   descriptor without id, one for another platform, or, when a kind is
   requested, one without an extension point of that kind. Otherwise the
   chosen extension point sets kind, extension point and library name, and
   the metadata is filled in.
   */
  function Factory(plugin: Option<Plugin>, t: AddonType, host: Host, b: AddonInfo): (r: Option<AddonInfo>)
    ensures r.Some? <==>
      && plugin.Some? && plugin.value.identifier.Some?
      && PlatformSupportsAddon(plugin.value, host)
      && (t == Unknown ||
          exists i :: 0 <= i < |plugin.value.extensions|
            && !IsMetadataPoint(plugin.value.extensions[i].pointId)
            && host.translate(plugin.value.extensions[i].pointId) == t)
    ensures r.Some? ==> r.value.id == plugin.value.identifier.value
    ensures r.Some? && GetFirstExtPoint(plugin.value, t, host.translate).Some? ==>
      var e := plugin.value.extensions[GetFirstExtPoint(plugin.value, t, host.translate).value];
      r.value.extPoint == Some(e) && r.value.addonType == host.translate(e.pointId) && !IsMetadataPoint(e.pointId)
    ensures r.Some? && t != Unknown ==> r.value.addonType == t && r.value.extPoint.Some?
    ensures r.Some? && GetFirstExtPoint(plugin.value, t, host.translate).None? ==>
      r.value.addonType == b.addonType && r.value.extPoint == b.extPoint && r.value.libName == b.libName
    ensures r.Some? && GetFirstExtPoint(plugin.value, t, host.translate).Some? ==>
      r.value.libName == LibraryName(plugin.value.extensions[GetFirstExtPoint(plugin.value, t, host.translate).value].config, host)
    ensures r.Some? ==>
      r.value.(addonType := b.addonType, extPoint := b.extPoint, libName := b.libName)
        == FillCpluffMetadata(plugin.value, b, host.locale)
  {
    if plugin.None? || plugin.value.identifier.None? then None
    else if !PlatformSupportsAddon(plugin.value, host) then None
    else
      var p := plugin.value;
      var ext := GetFirstExtPoint(p, t, host.translate);
      if ext.None? && t != Unknown then None
      else
        var b1 := if ext.Some? then WithExtPoint(b, p.extensions[ext.value], host) else b;
        var filled := FillCpluffMetadata(p, b1, host.locale);
        assert filled.addonType == b1.addonType && filled.extPoint == b1.extPoint;
        Some(filled)
  }
}

=== FILE: updates.dfy ===
/**
 `GetAvailableUpdates`: the repository entries newer than the installed,
 enabled addons. The version order (`AddonVersion`'s `>`) is a parameter;
 `remote` answers the database's `GetAddon` lookup by id.
 */
module Updates {
  import opened AddonTypes
  import opened Registry

  /** `greater` behaves as a strict order: never both ways, so never reflexive. */
  ghost predicate IsStrictOrder(greater: (Version, Version) -> bool) {
    forall x, y :: greater(x, y) ==> !greater(y, x)
  }

  /** The entries of `remote` strictly newer than the addon of `installed` with their id. */
  function NewerEntries(installed: seq<AddonInfo>, remote: map<string, AddonInfo>,
                        greater: (Version, Version) -> bool): (r: seq<AddonInfo>)
    ensures |r| <= |installed|
    ensures forall u :: u in r <==>
      exists a :: a in installed && a.id in remote && remote[a.id] == u && greater(u.version, a.version)
    decreases |installed|
  {
    if |installed| == 0 then []
    else
      var rest := NewerEntries(installed[1..], remote, greater);
      assert forall a :: a in installed <==> a == installed[0] || a in installed[1..];
      var a := installed[0];
      if a.id in remote && greater(remote[a.id].version, a.version) then [remote[a.id]] + rest else rest
  }

  /** `GetAvailableUpdates()`. */
  function GetAvailableUpdates(env: Env, st: State, remote: map<string, AddonInfo>,
                               greater: (Version, Version) -> bool): seq<AddonInfo> {
    NewerEntries(GetAddons(env, st), remote, greater)
  }

  /** `HasAvailableUpdates()`: some installed, enabled addon has a newer repository entry. */
  predicate HasAvailableUpdates(env: Env, st: State, remote: map<string, AddonInfo>,
                                greater: (Version, Version) -> bool)
  {
    |GetAvailableUpdates(env, st, remote, greater)| > 0
  }

  /** An update exists exactly when an enabled addon's repository entry is newer. */
  lemma HasAvailableUpdatesExact(env: Env, st: State, remote: map<string, AddonInfo>,
                                 greater: (Version, Version) -> bool)
    ensures HasAvailableUpdates(env, st, remote, greater) <==>
      exists a :: (a in GetAddons(env, st) && a.id in remote && greater(remote[a.id].version, a.version))
  {
    var us := GetAvailableUpdates(env, st, remote, greater);
    if |us| > 0 {
      assert us[0] in us;
    }
    if exists a :: (a in GetAddons(env, st) && a.id in remote && greater(remote[a.id].version, a.version)) {
      var a :| a in GetAddons(env, st) && a.id in remote && greater(remote[a.id].version, a.version);
      assert remote[a.id] in us;
    }
  }

  /**
   A repository entry is offered exactly when it is the entry for the id of an
   installed, enabled addon and its version is strictly greater than that
   addon's.
   */
  lemma AvailableUpdatesExact(env: Env, st: State, remote: map<string, AddonInfo>,
                              greater: (Version, Version) -> bool)
    ensures forall u :: u in GetAvailableUpdates(env, st, remote, greater) <==>
      exists a :: (a in GetAddonsInternal(env, st, Unknown, false) && a.id !in st.disabled
        && a.id in remote && remote[a.id] == u && greater(u.version, a.version))
  {
    EnabledDisabledPartition(env, st, Unknown);
  }

  /**
   When the repository files each entry under its own id and its version is
   equal to or lower than that of every installed addon with that id, the
   entry is never offered.
   */
  lemma EqualOrLowerNeverOffered(env: Env, st: State, remote: map<string, AddonInfo>,
                                 greater: (Version, Version) -> bool, id: string)
    requires IsStrictOrder(greater)
    requires forall x :: x in remote ==> remote[x].id == x
    requires id in remote
    requires forall a :: a in GetAddons(env, st) && a.id == id ==>
      remote[id].version == a.version || greater(a.version, remote[id].version)
    ensures remote[id] !in GetAvailableUpdates(env, st, remote, greater)
  {
  }
}

=== FILE: uri_utils.dfy ===
/** The `URIUtils` helper the addon manager uses to derive asset paths. */
module UriUtils {

  /**
   `URIUtils::AddFileToFolder` for plain folder paths: a "/" is put between
   the folder and the file unless the folder is empty or already ends in "/"
   or "\\".
   */
  function AddFileToFolder(folder: string, file: string): (r: string)
    ensures r == folder + file || r == folder + "/" + file
    ensures r == folder + file <==> folder == "" || folder[|folder| - 1] == '/' || folder[|folder| - 1] == '\\'
  {
    if folder == "" || folder[|folder| - 1] == '/' || folder[|folder| - 1] == '\\' then folder + file
    else folder + "/" + file
  }
}

=== FILE: wrappers.dfy ===
/** The optional value used wherever the addon manager and C-Pluff hand back a pointer that may be null. */
module Wrappers {

  datatype Option<+T> = None | Some(value: T) {

    /** Returns the value held in Some, or `default` for None. */
    function GetOr(default: T): T {
      match this
      case Some(v) => v
      case None => default
    }
  }
}
